=== FILE: README.md ===
# PyPyDanceRollBook: a verified model of the log-to-event engine

PyPyDanceRollBook reads the session logs of a social VR client and rebuilds
two kinds of events from them:

- attendance records: who was in the PyPyDance room, from when to when;
- music-play events: which video was played, under which title, queued by whom.

On top of those it hands out achievements and renders per-user cards.

This project models the deterministic heart of that pipeline in Dafny and
proves what each piece promises. It covers:

- `log_analyzer.py`:
  - the room-session segmenter (`extract_valid_ranges`);
  - the per-session attendance reconstructor (`analyze_range`);
  - the name-global minimum-duration filter and the two sorts of `get_metrics`;
  - the music-event extractor (`extract_music_logs`) with its metadata parser, YouTube title rewrite and five-entry duplicate window;
  - the title cache (`get_youtube_title`).
- `og.py`:
  - `safe_filename`, `sec_to_hms_str`, `fmt_duration`;
  - the card and profile paths;
  - the outcome tally of `build_all_user_cards`.
- `db_achiv.py`: the decision rules of the six `award_*` functions, over query results given as inputs.

Log lines enter the model already classified. A `LogLine` carries the
following:

- the parse of its first 19 characters (`None` when `strptime` would fail);
- whether the room-enter or room-leave pattern matches;
- the optional join, left and video captures.

A capture holds a timestamp in seconds and the trimmed name, or the URL and
metadata. `LogLines.JoinCapture` and `LogLines.LeftCapture` state how the two
name groups are cut from the text after their markers.

Everything else is stated over sequences, sets and maps:

- the title cache is a map threaded through the calls;
- the YouTube request is a lookup function that either fails or yields the titles of `items`;
- file existence is a set of paths;
- every database query is a function or sequence given as input.

Modules, one per file:

| file | module | models |
|---|---|---|
| `wrappers.dfy` | `Wrappers` | `Option` |
| `text.dfy` | `Text` | `in`, `split`, `rsplit`, `strip`, `replace`, decimal rendering and `:02d` |
| `log_lines.dfy` | `LogLines` | classified lines, the join/left name captures, the allow-list test |
| `segmenter.dfy` | `Segmenter` | `extract_valid_ranges` |
| `attendance.dfy` | `Attendance` | `analyze_range` |
| `aggregate.dfy` | `Aggregate` | the session loop, `attendance_total` and `valid_attendance` |
| `sorting.dfy` | `Sorting` | `sorted(..., key=...)` as a stable sort |
| `title_cache.dfy` | `TitleCache` | `get_youtube_title` |
| `music.dfy` | `Music` | `extract_music_logs` |
| `metrics.dfy` | `Metrics` | `get_metrics` (and the identical pipeline of `analyze`) |
| `user_cards.dfy` | `UserCards` | the `og.py` helpers and the card-build tally |
| `achievements.dfy` | `Achievements` | the `db_achiv.py` award rules |

## Behaviour worth knowing

These behaviours follow from the code and are easy to miss on a first read:

- **An enter line inside an open session restarts it** (log_analyzer.py:75-76). Every enter match assigns a new `current`, so the session is reopened at the newer line and the earlier enter line is forgotten (`Segmenter.EnterRestartsSession`).
- **Some metadata drops the music event** (log_analyzer.py:132-137). Take a field that contains `" : "` and `(`, where the only `(` comes before the first `" : "`. Then `rsplit` yields one part, the unpacking raises `ValueError`, and `continue` drops the event (`Music.ParenOnlyBeforeSeparatorDrops`).
- **For a YouTube URL with an id, the metadata title never reaches the event** (log_analyzer.py:154-158). The resolved title replaces it: the cached title, else the first item of a successful request, else the id itself. Without an API key, the id replaces it (`Music.Retitle`, `Music.MetaTitleIgnored`, `Music.YouTubeTitleReplaced`).
- **A failed lookup is not cached** (log_analyzer.py:57-59). The same id is requested again on the next call, and if that retry succeeds, its title is returned and cached (`TitleCache.FailedLookupRepeats`, `TitleCache.ResolveTwice`, `TitleCache.RetryCanSucceed`).
- **The closing line's timestamp can abort the whole pass** (log_analyzer.py:86). `analyze_range` parses the first 19 characters of the closing line. The leave pattern is a `search`, so those characters need not be a timestamp. If they are not, `get_metrics` raises (`Metrics.GetMetrics`, outcome `ParseFailed`).
- **A name with a `(` never pairs its join and left lines** (log_analyzer.py:21-22). The join name keeps the `(` and everything after it; the left name stops before it (`LogLines.ParenthesisedNameDoesNotPair`).
- **과몰입 and 완장 issue an INSERT for the same user on every qualifying day** (db_achiv.py:192-222, 268-301). Both read the award set once, before the date loop. So a user outside it gets one `user_achievements` row per two-attendee day (과몰입), or per attended day without Nine_Bones (완장). Whether the database keeps those repeated rows depends on the table's keys, which the source does not define (`Achievements.OverImmersedAwardsTwice`, `Achievements.CaptainAwardIff`).

## Model

| member | source | states |
|---|---|---|
| Text.FindFrom | log_analyzer.py:132 | the leftmost occurrence of a substring at or after a position, or the fact that it occurs nowhere there |
| Text.ContainsIff | log_analyzer.py:132 | `sub in s` holds exactly when the substring occurs at some index |
| Text.AfterFirst | log_analyzer.py:134 | `split(" : ", 1)[1]` is the suffix after the first occurrence of the separator, with no occurrence before it |
| Text.RSplitChar | log_analyzer.py:135 | `rsplit("(", 1)` fails exactly when there is no `(`; otherwise both parts glue back to the input around its last `(` |
| Text.RSplitCharJoin | log_analyzer.py:140 | splitting `a + "(" + b` with no `(` in `b` gives back exactly `a` and `b` |
| Text.StripByEnds | log_analyzer.py:146 | after `strip` neither end character is one of the stripped characters |
| Text.StripByInfix | log_analyzer.py:146 | `strip` returns an infix of its input and removes only strippable characters in front of and behind it |
| Text.StripByTrailing | log_analyzer.py:147 | stripping a trimmed text with one strippable character appended gives the text back |
| Text.ReplaceChar | og.py:48 | `replace` leaves a text without the character unchanged, removes the character when the replacement lacks it, and introduces nothing but replacement characters |
| Text.ReplaceCharAppend | og.py:48 | `replace` distributes over concatenation |
| Text.Decimal | og.py:348 | `f"{n}"` of a natural number is all digits, has no leading zero, has one digit exactly below 10, and reads back to the number |
| Text.Pad2 | og.py:56 | `f"{n:02d}"` has at least two characters, exactly two below 100, and for a non-negative number reads back to it |
| LogLines.UpTo | log_analyzer.py:22 | `[^(]+` stops at the first `(`: a prefix without `(` that is followed by `(` whenever it is shorter than the text |
| LogLines.JoinCapture | log_analyzer.py:90-93 | the join name is the whole text after the marker, trimmed: no whitespace at either end, and every non-whitespace character of the text kept |
| LogLines.LeftCapture | log_analyzer.py:97-100 | the left name is the text before the first `(`, trimmed: no whitespace at either end and no `(` |
| LogLines.Allowed | log_analyzer.py:104 | the consent test: an empty allow-list lets everybody through, otherwise only its members; its uses are stated by `Attendance.AnalyzeRange` and `Music.Candidate` |
| LogLines.ParenthesisedNameDoesNotPair | log_analyzer.py:21-22 | for any text with a `(` after the marker, the join name keeps a `(` and the left name has none, so such a player's join and left names always differ |
| Segmenter.ScanInvariant | log_analyzer.py:74-80 | after each prefix, the open session starts at the latest enter line with no enter or leave line since it, and the emitted ranges are exactly the sessions closed so far, in order |
| Segmenter.Step | log_analyzer.py:74-80 | the loop body; its effect over every prefix is stated by `Segmenter.ScanInvariant` |
| Segmenter.Scan | log_analyzer.py:71-81 | the loop over the first n lines; what it emits is stated by `Segmenter.ScanInvariant` and `Segmenter.ExtractValidRanges` |
| Segmenter.ExtractValidRanges | log_analyzer.py:71-81 | a range is emitted iff it is a session: an enter line at its start, a leave line that is not an enter line at its end, neither kind in between; each has start < end, and the ranges are in order |
| Segmenter.OrderedIsDisjoint | log_analyzer.py:79 | any two emitted ranges, not only neighbours, are disjoint and increasing |
| Segmenter.EnterRestartsSession | log_analyzer.py:75-76 | a second enter line before the leave line restarts the session: the range starts at the later enter |
| Segmenter.DanglingSessionDropped | log_analyzer.py:74-81 | a session still open at the end of the file yields no range |
| Attendance.FirstJoin | log_analyzer.py:94-95 | the reference first join line of a name in a range, and that no earlier line joins it |
| Attendance.LastLeft | log_analyzer.py:101 | the reference last left line of a name in a range, and that no later line leaves it |
| Attendance.ScanRange | log_analyzer.py:88-101 | the two dicts after a prefix of the range; their contents are stated by `Attendance.JoinsInvariant` and `Attendance.LeftsInvariant` |
| Attendance.JoinStepAgrees | log_analyzer.py:90-95 | one line keeps `join_times` equal to the reference: exactly the joined names, each with its first join time, in the order of first joins |
| Attendance.JoinsInvariant | log_analyzer.py:88-95 | after any prefix of the range, `join_times` agrees with the first-join reference |
| Attendance.LeftsInvariant | log_analyzer.py:97-101 | after any prefix of the range, `left_times` holds exactly the names with a left line, each with its last left time |
| Attendance.Emit | log_analyzer.py:103-115 | every record has an allowed name and a join entry, ends at the name's last left time or at the range end, and has duration end - start > 0 |
| Attendance.EmitComplete | log_analyzer.py:103-115 | every allowed join entry with a positive duration yields its record |
| Attendance.EmitOrder | log_analyzer.py:103 | records come out in the order of `join_times` |
| Attendance.AnalyzeRange | log_analyzer.py:83-115 | fails iff the closing line has no timestamp; otherwise the records are exactly the expected record of each allowed name (first join to last left, or to the closing time; positive duration only), in first-join order |
| Attendance.AnalyzeRangeSound | log_analyzer.py:103-115 | every emitted record is the expected record of its name, and its name has a join line in the range, so a name seen only in left lines gets no record |
| Attendance.AnalyzeRangeComplete | log_analyzer.py:103-115 | every allowed name that has an expected record gets it emitted |
| Attendance.AnalyzeRangeOrder | log_analyzer.py:103 | records are ordered by the index of their name's first join line |
| Aggregate.Concat | log_analyzer.py:208-211 | the concatenation of the per-session results fails iff one of them fails |
| Aggregate.ConcatMember | log_analyzer.py:208-211 | a collected record is exactly a record of one of the sessions |
| Aggregate.Collect | log_analyzer.py:208-211 | the session loop fails iff some session's closing line has no timestamp |
| Aggregate.Totals | log_analyzer.py:205-210 | the `defaultdict` fold of durations per name; its value is stated by `Aggregate.TotalsAreSums` |
| Aggregate.SumFor | log_analyzer.py:205-210 | the reference sum of a name's durations that `Aggregate.TotalsAreSums` compares the fold with |
| Aggregate.TotalsAreSums | log_analyzer.py:205-210 | the `defaultdict` fold gives every name the sum of its records' durations, and 0 to a name without records |
| Aggregate.KeepWhere | log_analyzer.py:213 | the comprehension keeps exactly the records whose name's entry reaches the minimum |
| Aggregate.KeepQualified | log_analyzer.py:213 | a record survives iff the total duration of all records of its name reaches the minimum |
| Aggregate.KeepQualifiedAllOrNone | log_analyzer.py:213 | either every record of a name survives, in order, or none does |
| Aggregate.PositiveTotals | log_analyzer.py:213 | with positive durations, a name's total is positive exactly when it has a record |
| Sorting.SortBy | log_analyzer.py:217-218 | `sorted` returns a permutation ordered by key, and elements with equal keys keep their input order |
| Sorting.SortBySorted | log_analyzer.py:217-218 | sorting an already sorted list changes nothing |
| TitleCache.Resolve | log_analyzer.py:31-69 | a cached id returns its cached title; otherwise a request is made iff there is a key; a successful request caches and returns the first item's title, or the id when there are no items; a failed or skipped request returns the id and leaves the cache unchanged; existing entries never change |
| TitleCache.ResolveTwice | log_analyzer.py:44-62 | with the retry's request free to answer differently, the second call requests again exactly when the first requested and failed; without a new request it returns the first call's title and cache; when the retry answers as before, both calls agree |
| TitleCache.RetryCanSucceed | log_analyzer.py:52-62 | a failed request leaves the id uncached and returns the id; a later successful retry returns and caches the first item's title |
| TitleCache.FailedLookupRepeats | log_analyzer.py:57-59 | a failed request is not remembered, so the next call requests again |
| TitleCache.EmptyItemsCachedAsId | log_analyzer.py:56-62 | a response without items caches and returns the id itself |
| TitleCache.NoKeyNeverWrites | log_analyzer.py:44-49 | without an API key the cache is read but never written |
| Music.ParseMeta | log_analyzer.py:132-147 | the event is dropped exactly when the field has `" : "` and `(`, but no `(` after its first `" : "` |
| Music.ParseMetaNoParen | log_analyzer.py:143-147 | a field without `(` yields its trimmed text and the user `"Unknown"` |
| Music.ParseMetaTitleUser | log_analyzer.py:138-147 | `"<title> (<user>)"` parses back to its title and user |
| Music.ParseMetaPrefixed | log_analyzer.py:132-147 | `"<prefix> : <title> (<user>)"` parses back to its title and user, whatever the title contains |
| Music.ParenOnlyBeforeSeparatorDrops | log_analyzer.py:132-137 | a `(` only before the first `" : "` makes the split fail and drops the event |
| Music.IdMarker | log_analyzer.py:155 | the id group starts right after `v=` or `be/` and begins with an id character |
| Music.FirstMarker | log_analyzer.py:155 | `re.search` takes the leftmost position where the pattern matches |
| Music.IdRun | log_analyzer.py:155 | `[\w\-]+` takes the longest run of id characters at the group start |
| Music.VideoId | log_analyzer.py:155-157 | there is an id iff the pattern matches somewhere, and it is the greedy run at the leftmost match |
| Music.Retitle | log_analyzer.py:154-158 | a non-YouTube URL or one without an id keeps the metadata title; otherwise the title is the cached one, else the first item of a successful request, else the id, and only a successful request writes the cache |
| Music.MetaTitleIgnored | log_analyzer.py:154-158 | for a YouTube URL with an id, two different metadata titles give the same event title and the same cache |
| Music.YouTubeTitleReplaced | log_analyzer.py:154-158 | for a YouTube URL with an id, the id replaces the metadata title even without an API key |
| Music.LastWindow | log_analyzer.py:118 | the window is the last five keys, or all of them when there are fewer |
| Music.PushWindow | log_analyzer.py:162 | appending to the full deque evicts the oldest key, so the window stays the last five keys |
| Music.Candidate | log_analyzer.py:124-158 | a line yields a candidate iff its metadata parses and the user is allowed; the candidate keeps the line's timestamp, URL and user; its title is the resolved title for a YouTube URL with an id and the metadata title otherwise; the cache only grows |
| Music.Accept | log_analyzer.py:160-169 | an event whose key is in the window is suppressed and not pushed; any other event is emitted and its key pushed |
| Music.MusicStep | log_analyzer.py:119-169 | one loop iteration; what it adds and keeps is stated by `Music.StepSound` and `Music.StepEmitsIffFresh` |
| Music.ExtractMusic | log_analyzer.py:117-169 | the extractor state after a prefix of the lines; its invariants are stated by `Music.HealthyInvariant` and `Music.EmittedEventsAreAllowed` |
| Music.WindowInvariant | log_analyzer.py:160-162 | the window always holds the keys of the last five emitted events |
| Music.StepEmitsIffFresh | log_analyzer.py:160-169 | an allowed, parsed event is emitted iff its key is not among the last five emitted keys, and otherwise nothing is emitted |
| Music.NoRepeatWithinWindow | log_analyzer.py:160-162 | no two emitted events within five places of each other share a `(title, user)` |
| Music.RepeatAfterFiveEmitted | log_analyzer.py:160-163 | a key absent from the last five emitted events is emitted again: the output becomes the previous output plus exactly this line's event, however often the key was emitted before |
| Music.EmittedEventsAreAllowed | log_analyzer.py:150-169 | every emitted event has an allowed user and the timestamp and URL of some video line, and the cache never loses an entry |
| Music.StepSound | log_analyzer.py:150-169 | one line adds at most an allowed event of its own video, and keeps every cache entry |
| Music.HealthyInvariant | log_analyzer.py:117-169 | the extractor state always has its window equal to the last five keys and no near repeat |
| Metrics.SessionRecordsFailIff | log_analyzer.py:204-211 | collecting fails exactly when some session's closing line has no timestamp |
| Metrics.SessionRecords | log_analyzer.py:204-211 | the per-session records of the whole file; stated by `Metrics.SessionRecordsFailIff` and `Metrics.SessionRecordsMember` |
| Metrics.SessionRecordsMember | log_analyzer.py:204-211 | a collected record is exactly a record `analyze_range` yields for some session of the file |
| Metrics.GetMetrics | log_analyzer.py:200-219 | the run fails iff some session's closing line has no timestamp; otherwise attendance is sorted by start and music by timestamp, attendance holds exactly the records whose name reaches the minimum, and the cache keeps its entries |
| Metrics.AttendanceIsStableSort | log_analyzer.py:217 | the attendance list is the thresholded records sorted by start, stably |
| Metrics.MusicIsStableSort | log_analyzer.py:218 | the music list is the emitted events sorted by timestamp, stably |
| Metrics.ReportAllOrNone | log_analyzer.py:213 | two records of the same name are both in the report or both absent |
| UserCards.SafeFilename | og.py:47-48 | the result has neither `/` nor the fraction slash, equals the nickname when it had neither, and adds only characters of `_SLASH_` |
| UserCards.SafeFilenameCollides | og.py:48 | `p/q` and `p_SLASH_q` get the same file name |
| UserCards.SecToHms | og.py:51-56 | `None` and 0 give `"00:00"`; the text always ends in a colon and two more characters |
| UserCards.SecToHmsReadsBack | og.py:53-56 | for n >= 0 the text reads back to whole hours and minutes below 60, which lose less than a minute of n |
| UserCards.FmtDuration | og.py:343-348 | `None` or a non-positive value gives `"0m"`; the text always ends in `m` |
| UserCards.FmtDurationReadsBack | og.py:343-348 | below an hour the text is the minutes alone; otherwise it is hours > 0 then minutes < 60, which lose less than a minute |
| UserCards.CachedPathInsideDir | og.py:456-459 | the card file is the sanitised nickname plus `.png`, directly inside the cache directory |
| UserCards.ResolveProfileImage | og.py:83-88 | the nickname's own image when it exists, else the default image |
| UserCards.PathJoin | og.py:459 | `os.path.join` of two POSIX pieces; its shape is stated by `UserCards.PathJoinShape` |
| UserCards.PathJoinShape | og.py:459 | the joined path ends with the second piece; an absolute second piece is the whole result, otherwise the result starts with the first piece and has a `/` right before the second |
| UserCards.CachedPath | og.py:456-459 | the card file of a nickname; stated by `UserCards.CachedPathInsideDir` |
| UserCards.RowStep | og.py:477-492 | a row is skipped iff not overwriting and its card exists; only a built row adds its file |
| UserCards.BuildAllUserCards | og.py:461-495 | total is the row count, the three counters agree with the per-row outcomes, and built + skipped + errors = total |
| UserCards.CountsAddUp | og.py:476-492 | every row moves exactly one of the three counters |
| UserCards.OutcomesPrefix | og.py:476 | later rows never change the outcome of earlier ones |
| UserCards.FilesGrow | og.py:489 | card files are only ever added |
| UserCards.SkippedIffPresent | og.py:479-481 | without overwriting, a row is skipped exactly when its card file exists once the earlier rows have run |
| UserCards.ExistingCardSkipped | og.py:479-481 | without overwriting, a card file present beforehand always means the row is skipped |
| UserCards.OverwriteNeverSkips | og.py:479 | with overwriting no row is skipped |
| UserCards.DuplicateSkippedAfterBuild | og.py:478-490 | without overwriting, a nickname built once is skipped when it comes again |
| Achievements.Days | db_achiv.py:41-43 | the date loop visits every day from the start through today, one day at a time |
| Achievements.DayAwards | db_achiv.py:64-71 | a day awards exactly its attendees outside the award set, each once |
| Achievements.InssaRun | db_achiv.py:41-79 | the day loop that re-reads the award set on each qualifying day; stated by `Achievements.InssaHolders`, `Achievements.InssaFirstDay` and `Achievements.InssaAwardsOnce` |
| Achievements.AwardInssa | db_achiv.py:6-81 | `award_inssa_achievement_from_date`; stated by `Achievements.InssaAwardIff` |
| Achievements.InssaHolders | db_achiv.py:53-71 | after the loop a user holds 인싸 iff not a prior holder and present on some day with at least ten attendees |
| Achievements.InssaFirstDay | db_achiv.py:53-71 | each award is dated on the user's first qualifying day |
| Achievements.InssaAwardsOnce | db_achiv.py:57-64 | re-reading the award set on every qualifying day awards nobody twice |
| Achievements.InssaAwardIff | db_achiv.py:29-79 | 인싸 is awarded to a user on a day iff the achievement exists, the user held none, and it is the user's first day in the range with at least ten attendees |
| Achievements.InssaOncePerUser | db_achiv.py:53-71 | with distinct attendee lists, no user gets 인싸 twice in one run |
| Achievements.FixedHeldRun | db_achiv.py:213-222 | with the award set read once, an award is any candidate of a visited day outside that set |
| Achievements.FixedHeldRunByDate | db_achiv.py:199-230 | over the date loop, the same as any candidate day from the start through today |
| Achievements.AwardOverImmersed | db_achiv.py:161-233 | `award_over_immersed_achievement_from_date`; stated by `Achievements.OverImmersedAwardIff` |
| Achievements.AwardCaptain | db_achiv.py:236-311 | `award_captain_achievement_from_date`; stated by `Achievements.CaptainAwardIff` |
| Achievements.OverImmersedAwardIff | db_achiv.py:182-230 | 과몰입 goes to each user outside the initial award set on every day with exactly two attendees |
| Achievements.OverImmersedAwardsTwice | db_achiv.py:192-222 | any user outside the initial award set who is present on two visited two-attendee days gets an INSERT on both, so the run names that user twice |
| Achievements.CaptainAwardIff | db_achiv.py:258-308 | 완장 goes to every attendee outside the initial award set on a day with attendees and without `Nine_Bones` |
| Achievements.PerUser | db_achiv.py:122-126 | only users outside the award set are considered, and each gets its own decided day |
| Achievements.WeekFrom | db_achiv.py:142-146 | the inner loop succeeds iff every remaining day of the week is attended |
| Achievements.FirstStreak | db_achiv.py:139-155 | the first attended day that starts seven attended days in a row, or none |
| Achievements.ChillDecision | db_achiv.py:134-155 | one user's decision: the `< 7` gate, then the first streak start; stated by `Achievements.ChillGateRedundant` and `Achievements.ChillEarliest` |
| Achievements.AwardChillGuy | db_achiv.py:84-158 | `award_chill_guy_achievement`; stated by `Achievements.ChillAwardIff` |
| Achievements.ChillGateRedundant | db_achiv.py:134-135 | the fewer-than-seven-days gate never changes the outcome |
| Achievements.ChillEarliest | db_achiv.py:139-155 | with dates in ascending order, the recorded day is the earliest streak start |
| Achievements.ChillAwardIff | db_achiv.py:102-155 | Chill guy goes to a user outside the award set iff some attended day starts seven attended days, dated at the first such day |
| Achievements.TopTitle | db_achiv.py:361-369 | the title played on the most distinct days, with its day count |
| Achievements.FavouriteDecision | db_achiv.py:361-376 | the chosen title has at least thirty distinct days and no played title has more; the award day is its latest play (`MAX(played_at)`) |
| Achievements.FavouriteQualifiesIff | db_achiv.py:366-371 | a user qualifies iff some title was played on at least thirty distinct days |
| Achievements.AwardFavourite | db_achiv.py:314-383 | `award_favorite_song_achievement`; stated by `Achievements.FavouriteAwardIff` |
| Achievements.Titles | db_achiv.py:433 | the distinct titles of `COUNT(DISTINCT title)`, as exact strings; its size is bounded by `Achievements.TitlesSize` |
| Achievements.FavouriteAwardIff | db_achiv.py:336-376 | 최애숭배 goes to a user outside the award set iff some title was played on at least thirty distinct days |
| Achievements.ThirtyNineDecision | db_achiv.py:433-443 | a user qualifies iff they played at least 39 distinct titles, dated at their last play |
| Achievements.AwardThirtyNine | db_achiv.py:385-449 | `award_39_achievement`; stated by `Achievements.ThirtyNineAwardIff` |
| Achievements.ThirtyNineAwardIff | db_achiv.py:407-443 | 39 goes to a user outside the award set iff they played at least 39 distinct titles, dated at their last play |

## Left out

- The regex engine. Lines come classified, so the model does not decide whether a pattern matches a line.
- `parse_time` of capture timestamps. The join, left and video patterns check the digit layout, but `strptime` could still reject, say, month 13; captures carry a natural number of seconds.
- Clock and timezone concerns: days and timestamps are integers.
- File I/O: reading the log, loading and saving the JSON cache file, and the warnings printed when either fails. The cache is a map that is passed in and returned, so the rows that say the cache keeps its entries assume the file loads. When loading fails, the source starts from an empty cache (log_analyzer.py:37-39), and the next successful lookup rewrites the file with that single entry (log_analyzer.py:62-66), losing every earlier one. A failed save (log_analyzer.py:63-67) leaves a new entry in memory only, so the next call, which reloads the file, requests that id again; the model keeps the entry.
- The HTTP request and the JSON response of the YouTube Data API. They are a lookup function that fails or yields the item titles.
- `analyze` prints the same two lists that `get_metrics` returns; the printing is left out.
- Music.IsIdChar: `\w` is read as ASCII letters, digits and `_`; Unicode word characters are not modelled.
- UserCards.SecondsOrZero: the truncation of `int()` applied to a float or `Decimal` is not modelled; the input is an optional integer.
- Image rendering, fonts, database queries, Flask routes and `fmt_first` in `og.py`.
- UserCards.BuildAllUserCards: a failing database connection is not modelled. The per-row outcomes of fetching, rendering and saving are inputs.
- Achievements.DaysOf, Achievements.TopTitle, Achievements.Titles, Achievements.ThirtyNineDecision: titles are compared as exact strings. The SQL groups them with `GROUP BY title` and `COUNT(DISTINCT title)` under the column's collation. The usual `utf8mb4` collations ignore case and trailing spaces, so the model can count more distinct titles than the database does, and award 최애숭배 or 39 where the program would not.
- Achievements.FavouriteDecision: when two titles tie on distinct days, `ORDER BY days DESC LIMIT 1` does not say which one wins. The model takes the first in play order, so it does not state which tied title is chosen. It does state that the chosen title has the most distinct days and that the award day is that title's latest play.
- Achievements.AwardOverImmersed, Achievements.AwardCaptain, Achievements.OverImmersedAwardsTwice, Achievements.CaptainAwardIff: every INSERT is assumed to succeed, because the source does not give the keys of `user_achievements`. Suppose `(user_id, achievement_id)` were unique. Then a repeated INSERT would raise, nothing catches it (only `finally: conn.close()`, db_achiv.py:232-233, 310-311), the day's uncommitted rows would be lost, and the module-level calls after it would not run.
- The SQL itself, commits, prints and configuration loading in `db_achiv.py`, and its module-level calls at the end of the file. Each award function's "achievement does not exist" early return is the `None` case of its `achievement` parameter.
- The incremental, slice-based processing of a growing file. `get_metrics` re-reads the whole file, so there is nothing to model.
- `db_uploader.py`, `app.py` and the JavaScript front end.

=== FILE: achievements.dfy ===
/** The award rules of db_achiv.py. Every query becomes an input: the
    achievement id lookup an `Option`, the award set a `set` of user ids,
    the per-day attendee lists and per-user date or play lists functions of
    the day or user. Dates are day numbers, so `timedelta(days=1)` is `+ 1`.
    Each rule returns the rows it inserts into `user_achievements`, in
    insertion order. */
module Achievements {
  import opened Wrappers

  type UserId = int

  /** A calendar day as a day number. */
  type Day = int

  /** One inserted `(user_id, achieved_at)` row. */
  datatype Award = Award(user: UserId, day: Day)

  predicate NoDup<T(==)>(s: seq<T>) {
    forall i, j :: 0 <= i < j < |s| ==> s[i] != s[j]
  }

  /** No user is awarded twice. */
  ghost predicate DistinctUsers(r: seq<Award>) {
    forall i, j :: 0 <= i < j < |r| ==> r[i].user != r[j].user
  }

  /** The users a list of awards names. */
  function Holders(r: seq<Award>): set<UserId> {
    set a | a in r :: a.user
  }

  /** The days a date loop visits: `start` up to `today` inclusive, one day
      at a time; none when `start` is after `today`. */
  function Days(start: Day, today: Day): (r: seq<Day>)
    ensures |r| == if start <= today then today - start + 1 else 0
    ensures forall i :: 0 <= i < |r| ==> r[i] == start + i
    decreases today - start
  {
    if start > today then [] else [start] + Days(start + 1, today)
  }

  /** `[uid for uid in users if uid not in held]`, each awarded on `day`. */
  function DayAwards(users: seq<UserId>, held: set<UserId>, day: Day): (r: seq<Award>)
    ensures forall a :: a in r <==> a.day == day && a.user in users && a.user !in held
    ensures NoDup(users) ==> DistinctUsers(r)
  {
    if |users| == 0 then []
    else
      var rest := DayAwards(users[1..], held, day);
      assert forall a :: a in rest ==> a.user in users[1..];
      (if users[0] in held then [] else [Award(users[0], day)]) + rest
  }

  lemma DistinctAppend(a: seq<Award>, b: seq<Award>)
    requires DistinctUsers(a) && DistinctUsers(b)
    requires forall x :: x in b ==> x.user !in Holders(a)
    ensures DistinctUsers(a + b)
  {
    forall i, j | 0 <= i < j < |a + b|
      ensures (a + b)[i].user != (a + b)[j].user
    {
      if i < |a| <= j {
        assert (a + b)[j] in b && (a + b)[i] in a;
      }
    }
  }

  // ---------------------------------------------------------------------
  // 인싸 (db_achiv.py:6-81): a day with at least ten attendees
  // ---------------------------------------------------------------------

  const InssaMinimum: nat := 10

  /** A day qualifies when its distinct attendees number at least ten. */
  predicate InssaDay(users: seq<UserId>) {
    |users| >= InssaMinimum
  }

  /** The awards of the first `n` visited days. The award set is read again
      on every qualifying day, so it holds the initial holders and everyone
      awarded on an earlier day. */
  function InssaRun(days: seq<Day>, n: nat, attendees: Day -> seq<UserId>, held0: set<UserId>): (r: seq<Award>)
    requires n <= |days|
  {
    if n == 0 then []
    else
      var prev := InssaRun(days, n - 1, attendees, held0);
      var users := attendees(days[n - 1]);
      if InssaDay(users) then prev + DayAwards(users, held0 + Holders(prev), days[n - 1])
      else prev
  }

  /** `u` attended a qualifying day among the first `n`. */
  ghost predicate QualifiedBy(days: seq<Day>, attendees: Day -> seq<UserId>, u: UserId, n: nat)
    requires n <= |days|
  {
    exists i :: 0 <= i < n && InssaDay(attendees(days[i])) && u in attendees(days[i])
  }

  /** The users awarded so far are exactly those, not held before, that
      attended some qualifying day. */
  lemma {:induction false} InssaHolders(days: seq<Day>, n: nat, attendees: Day -> seq<UserId>,
                                        held0: set<UserId>, u: UserId)
    requires n <= |days|
    ensures u in Holders(InssaRun(days, n, attendees, held0)) <==>
      u !in held0 && QualifiedBy(days, attendees, u, n)
  {
    if n > 0 {
      InssaHolders(days, n - 1, attendees, held0, u);
      var prev := InssaRun(days, n - 1, attendees, held0);
      var users := attendees(days[n - 1]);
      if InssaDay(users) {
        var added := DayAwards(users, held0 + Holders(prev), days[n - 1]);
        assert Holders(prev + added) == Holders(prev) + Holders(added);
        if u in users && u !in held0 && u !in Holders(prev) {
          assert Award(u, days[n - 1]) in added;
        }
      }
      if QualifiedBy(days, attendees, u, n) && !QualifiedBy(days, attendees, u, n - 1) {
        assert InssaDay(users) && u in users;
      }
    }
  }

  /** Each user is awarded on the first qualifying day they attended, and on
      no other day. */
  lemma {:induction false} InssaFirstDay(days: seq<Day>, n: nat, attendees: Day -> seq<UserId>,
                                         held0: set<UserId>, a: Award)
    requires n <= |days|
    ensures a in InssaRun(days, n, attendees, held0) <==>
      && a.user !in held0
      && exists i :: 0 <= i < n && days[i] == a.day && InssaDay(attendees(days[i]))
                     && a.user in attendees(days[i]) && !QualifiedBy(days, attendees, a.user, i)
  {
    if n > 0 {
      InssaFirstDay(days, n - 1, attendees, held0, a);
      InssaHolders(days, n - 1, attendees, held0, a.user);
      var prev := InssaRun(days, n - 1, attendees, held0);
      var users := attendees(days[n - 1]);
      if InssaDay(users) {
        var added := DayAwards(users, held0 + Holders(prev), days[n - 1]);
        assert a in prev + added <==> a in prev || a in added;
      }
    }
  }

  /** When every day's attendee list is duplicate-free, as `SELECT DISTINCT`
      makes it, nobody is awarded twice in one run. */
  lemma {:induction false} InssaAwardsOnce(days: seq<Day>, n: nat, attendees: Day -> seq<UserId>,
                                           held0: set<UserId>)
    requires n <= |days|
    requires forall i :: 0 <= i < n ==> NoDup(attendees(days[i]))
    ensures DistinctUsers(InssaRun(days, n, attendees, held0))
  {
    if n > 0 {
      InssaAwardsOnce(days, n - 1, attendees, held0);
      var prev := InssaRun(days, n - 1, attendees, held0);
      var users := attendees(days[n - 1]);
      if InssaDay(users) {
        DistinctAppend(prev, DayAwards(users, held0 + Holders(prev), days[n - 1]));
      }
    }
  }

  /** `award_inssa_achievement_from_date`: nothing when the achievement is
      missing, otherwise the awards of every day from `start` to `today`. */
  function AwardInssa(achievement: Option<int>, start: Day, today: Day,
                      attendees: Day -> seq<UserId>, held0: set<UserId>): seq<Award>
  {
    if achievement.None? then []
    else
      var days := Days(start, today);
      InssaRun(days, |days|, attendees, held0)
  }

  /** A user is awarded on day `d` exactly when the achievement exists, the
      user did not hold it, `d` lies in the visited range, `d` had at least
      ten attendees including the user, and no earlier visited day did. */
  lemma InssaAwardIff(achievement: Option<int>, start: Day, today: Day,
                      attendees: Day -> seq<UserId>, held0: set<UserId>, a: Award)
    ensures a in AwardInssa(achievement, start, today, attendees, held0) <==>
      && achievement.Some? && a.user !in held0
      && start <= a.day <= today && InssaDay(attendees(a.day)) && a.user in attendees(a.day)
      && forall e :: start <= e < a.day ==> !(InssaDay(attendees(e)) && a.user in attendees(e))
  {
    if achievement.Some? {
      var days := Days(start, today);
      InssaFirstDay(days, |days|, attendees, held0, a);
      if start <= a.day <= today {
        var i := a.day - start;
        assert days[i] == a.day;
        if !QualifiedBy(days, attendees, a.user, i) {
          forall e | start <= e < a.day
            ensures !(InssaDay(attendees(e)) && a.user in attendees(e))
          {
            assert days[e - start] == e;
          }
        }
        if forall e :: start <= e < a.day ==> !(InssaDay(attendees(e)) && a.user in attendees(e)) {
          assert !QualifiedBy(days, attendees, a.user, i);
        }
      }
    }
  }

  /** With duplicate-free attendee lists nobody receives 인싸 twice. */
  lemma InssaOncePerUser(achievement: Option<int>, start: Day, today: Day,
                         attendees: Day -> seq<UserId>, held0: set<UserId>)
    requires forall d :: NoDup(attendees(d))
    ensures DistinctUsers(AwardInssa(achievement, start, today, attendees, held0))
  {
    if achievement.Some? {
      var days := Days(start, today);
      InssaAwardsOnce(days, |days|, attendees, held0);
    }
  }

  // ---------------------------------------------------------------------
  // Rules that read the award set once, before the date loop
  // ---------------------------------------------------------------------

  /** The awards of the first `n` visited days when every day awards its
      candidates not in the fixed set `held`. */
  function FixedHeldRun(days: seq<Day>, n: nat, held: set<UserId>, candidates: Day -> seq<UserId>): (r: seq<Award>)
    requires n <= |days|
    ensures forall a :: a in r <==>
      a.user !in held && exists i :: 0 <= i < n && days[i] == a.day && a.user in candidates(days[i])
  {
    if n == 0 then []
    else
      var prev := FixedHeldRun(days, n - 1, held, candidates);
      var added := DayAwards(candidates(days[n - 1]), held, days[n - 1]);
      assert forall a :: a in prev + added <==> a in prev || a in added;
      prev + added
  }

  /** Membership in a fixed-set run over the visited days, stated by date. */
  lemma FixedHeldRunByDate(start: Day, today: Day, held: set<UserId>, candidates: Day -> seq<UserId>, a: Award)
    ensures var days := Days(start, today);
      a in FixedHeldRun(days, |days|, held, candidates) <==>
        a.user !in held && start <= a.day <= today && a.user in candidates(a.day)
  {
    var days := Days(start, today);
    if start <= a.day <= today {
      assert days[a.day - start] == a.day;
    }
  }

  // 과몰입 (db_achiv.py:161-233): a day with exactly two attendees

  const OverImmersedCount: nat := 2

  /** The day's attendees when there are exactly two of them, else nobody. */
  function OverImmersedCandidates(users: seq<UserId>): seq<UserId> {
    if |users| == OverImmersedCount then users else []
  }

  /** `award_over_immersed_achievement_from_date`. */
  function AwardOverImmersed(achievement: Option<int>, start: Day, today: Day,
                             attendees: Day -> seq<UserId>, held0: set<UserId>): seq<Award>
  {
    if achievement.None? then []
    else
      var days := Days(start, today);
      FixedHeldRun(days, |days|, held0, d => OverImmersedCandidates(attendees(d)))
  }

  /** A user is awarded on day `d` exactly when the achievement exists, the
      user did not hold it before the loop, `d` is visited and `d` had
      exactly two attendees, one of them the user. Earlier awards of the same
      run are not consulted. */
  lemma OverImmersedAwardIff(achievement: Option<int>, start: Day, today: Day,
                             attendees: Day -> seq<UserId>, held0: set<UserId>, a: Award)
    ensures a in AwardOverImmersed(achievement, start, today, attendees, held0) <==>
      && achievement.Some? && a.user !in held0 && start <= a.day <= today
      && |attendees(a.day)| == OverImmersedCount && a.user in attendees(a.day)
  {
    FixedHeldRunByDate(start, today, held0, d => OverImmersedCandidates(attendees(d)), a);
  }

  /** Because the award set is read only once, a user present on two
      visited days with exactly two attendees each is awarded on both, so
      the run can name one user twice. */
  lemma OverImmersedAwardsTwice(achievement: Option<int>, start: Day, today: Day,
                                attendees: Day -> seq<UserId>, held0: set<UserId>,
                                u: UserId, d1: Day, d2: Day)
    requires achievement.Some? && u !in held0 && start <= d1 < d2 <= today
    requires |attendees(d1)| == OverImmersedCount && u in attendees(d1)
    requires |attendees(d2)| == OverImmersedCount && u in attendees(d2)
    ensures var r := AwardOverImmersed(achievement, start, today, attendees, held0);
      Award(u, d1) in r && Award(u, d2) in r && !DistinctUsers(r)
  {
    var r := AwardOverImmersed(achievement, start, today, attendees, held0);
    OverImmersedAwardIff(achievement, start, today, attendees, held0, Award(u, d1));
    OverImmersedAwardIff(achievement, start, today, attendees, held0, Award(u, d2));
    var i :| 0 <= i < |r| && r[i] == Award(u, d1);
    var j :| 0 <= j < |r| && r[j] == Award(u, d2);
    assert i != j;
    if i < j {
      assert r[i].user == r[j].user;
    } else {
      assert r[j].user == r[i].user;
    }
  }

  // 완장 (db_achiv.py:236-311): a day without Nine_Bones

  /** The nickname whose presence cancels a day. */
  const Owner: string := "Nine_Bones"

  /** One `(user_id, nickname)` row of the day's attendee query. */
  type AttendeeRow = (UserId, string)

  function Nicknames(rows: seq<AttendeeRow>): (r: seq<string>)
    ensures |r| == |rows| && forall k :: 0 <= k < |rows| ==> r[k] == rows[k].1
  {
    seq(|rows|, k requires 0 <= k < |rows| => rows[k].1)
  }

  function Ids(rows: seq<AttendeeRow>): (r: seq<UserId>)
    ensures |r| == |rows| && forall k :: 0 <= k < |rows| ==> r[k] == rows[k].0
  {
    seq(|rows|, k requires 0 <= k < |rows| => rows[k].0)
  }

  /** Nobody when Nine_Bones attended, nobody when nobody attended,
      otherwise every attendee. */
  function CaptainCandidates(rows: seq<AttendeeRow>): seq<UserId> {
    if Owner in Nicknames(rows) then []
    else if |rows| > 0 then Ids(rows)
    else []
  }

  /** `award_captain_achievement_from_date`. */
  function AwardCaptain(achievement: Option<int>, start: Day, today: Day,
                        rows: Day -> seq<AttendeeRow>, held0: set<UserId>): seq<Award>
  {
    if achievement.None? then []
    else
      var days := Days(start, today);
      FixedHeldRun(days, |days|, held0, d => CaptainCandidates(rows(d)))
  }

  /** A user is awarded on day `d` exactly when the achievement exists, the
      user did not hold it before the loop, `d` is visited, Nine_Bones is
      not among that day's nicknames and the user is among its attendees. */
  lemma CaptainAwardIff(achievement: Option<int>, start: Day, today: Day,
                        rows: Day -> seq<AttendeeRow>, held0: set<UserId>, a: Award)
    ensures a in AwardCaptain(achievement, start, today, rows, held0) <==>
      && achievement.Some? && a.user !in held0 && start <= a.day <= today
      && (forall k :: 0 <= k < |rows(a.day)| ==> rows(a.day)[k].1 != Owner)
      && (exists k :: 0 <= k < |rows(a.day)| && rows(a.day)[k].0 == a.user)
  {
    FixedHeldRunByDate(start, today, held0, d => CaptainCandidates(rows(d)), a);
    var rs := rows(a.day);
    if exists k :: 0 <= k < |rs| && rs[k].1 == Owner {
      var k :| 0 <= k < |rs| && rs[k].1 == Owner;
      assert Nicknames(rs)[k] == Owner;
    }
    if a.user in Ids(rs) {
      var k :| 0 <= k < |rs| && Ids(rs)[k] == a.user;
    }
    if exists k :: 0 <= k < |rs| && rs[k].0 == a.user {
      var k :| 0 <= k < |rs| && rs[k].0 == a.user;
      assert Ids(rs)[k] == a.user;
    }
  }

  // ---------------------------------------------------------------------
  // Per-user rules: every user of a list not holding the award is decided
  // on their own records
  // ---------------------------------------------------------------------

  /** `for uid in [u for u in users if u not in held]`: the user is awarded
      on the day `decide` returns, or not at all. */
  function PerUser(users: seq<UserId>, held: set<UserId>, decide: UserId -> Option<Day>): (r: seq<Award>)
    ensures forall a :: a in r <==> a.user in users && a.user !in held && decide(a.user) == Some(a.day)
    ensures NoDup(users) ==> DistinctUsers(r)
  {
    if |users| == 0 then []
    else
      var u := users[0];
      var rest := PerUser(users[1..], held, decide);
      assert forall a :: a in rest ==> a.user in users[1..];
      (if u !in held && decide(u).Some? then [Award(u, decide(u).value)] else []) + rest
  }

  // Chill guy (db_achiv.py:84-158): seven consecutive days

  const StreakLength: nat := 7

  /** Every day from `d` through `d + 6` was attended. */
  ghost predicate Streak(dates: seq<Day>, d: Day) {
    forall x :: d <= x < d + StreakLength ==> x in dates
  }

  /** The inner loop over `j` from `j` on: every remaining day of the week
      starting at `d` is among `dates`. */
  function WeekFrom(dates: seq<Day>, d: Day, j: nat): (r: bool)
    requires j <= StreakLength
    ensures r <==> forall x :: d + j <= x < d + StreakLength ==> x in dates
    decreases StreakLength - j
  {
    if j == StreakLength then true
    else if d + j !in dates then false
    else WeekFrom(dates, d, j + 1)
  }

  /** The outer loop from index `i` on: the first date that starts a streak. */
  function FirstStreak(dates: seq<Day>, i: nat): (r: Option<Day>)
    requires i <= |dates|
    ensures r.None? <==> forall k :: i <= k < |dates| ==> !Streak(dates, dates[k])
    ensures r.Some? ==> exists k :: i <= k < |dates| && dates[k] == r.value && Streak(dates, r.value)
                                 && forall m :: i <= m < k ==> !Streak(dates, dates[m])
    decreases |dates| - i
  {
    if i == |dates| then None
    else if WeekFrom(dates, dates[i], 0) then Some(dates[i])
    else FirstStreak(dates, i + 1)
  }

  /** The decision for one user's ascending distinct attendance days: skip
      fewer than seven, otherwise the first day that starts a streak. */
  function ChillDecision(dates: seq<Day>): Option<Day> {
    if |dates| < StreakLength then None else FirstStreak(dates, 0)
  }

  /** `award_chill_guy_achievement`, with `users` the distinct attendees and
      `datesOf` each user's attendance days. */
  function AwardChillGuy(achievement: Option<int>, users: seq<UserId>, held: set<UserId>,
                         datesOf: UserId -> seq<Day>): seq<Award>
  {
    if achievement.None? then [] else PerUser(users, held, u => ChillDecision(datesOf(u)))
  }

  /** The integers from `a` up to, not including, `b`. */
  function Interval(a: int, b: int): (r: set<int>)
    ensures forall x :: x in r <==> a <= x < b
    ensures |r| == if a <= b then b - a else 0
    decreases b - a
  {
    if b <= a then {} else Interval(a, b - 1) + {b - 1}
  }

  lemma {:induction false} ElementsSize<T>(s: seq<T>)
    ensures |set x | x in s| <= |s|
  {
    if |s| > 0 {
      ElementsSize(s[1..]);
      assert (set x | x in s) == (set x | x in s[1..]) + {s[0]};
    } else {
      assert (set x | x in s) == {};
    }
  }

  /** The fewer-than-seven-days check never changes the outcome: a streak
      alone needs seven distinct attended days. */
  lemma ChillGateRedundant(dates: seq<Day>)
    ensures ChillDecision(dates) == FirstStreak(dates, 0)
  {
    if |dates| < StreakLength && FirstStreak(dates, 0).Some? {
      StreakNeedsSevenDays(dates, FirstStreak(dates, 0).value);
    }
  }

  /** Seven consecutive attended days are seven entries of `dates`. */
  lemma StreakNeedsSevenDays(dates: seq<Day>, d: Day)
    requires Streak(dates, d)
    ensures |dates| >= StreakLength
  {
    var week := Interval(d, d + StreakLength);
    var attended := set x | x in dates;
    ElementsSize(dates);
    assert week <= attended;
    SubsetSize(week, attended);
  }

  lemma {:induction false} SubsetSize<T>(a: set<T>, b: set<T>)
    requires a <= b
    ensures |a| <= |b|
    decreases |a|
  {
    if a != {} {
      var x :| x in a;
      SubsetSize(a - {x}, b - {x});
    }
  }

  /** On ascending dates the recorded day is the earliest that starts a
      streak. */
  lemma ChillEarliest(dates: seq<Day>)
    requires forall i, j :: 0 <= i < j < |dates| ==> dates[i] < dates[j]
    ensures ChillDecision(dates).Some? ==>
      forall e :: e in dates && Streak(dates, e) ==> ChillDecision(dates).value <= e
  {
    ChillGateRedundant(dates);
  }

  /** A user is awarded Chill guy on day `d` exactly when the achievement
      exists, the user is listed and does not hold it, `d` is an attended
      day starting seven consecutive attended days, and no earlier listed
      day does. */
  lemma ChillAwardIff(achievement: Option<int>, users: seq<UserId>, held: set<UserId>,
                      datesOf: UserId -> seq<Day>, a: Award)
    ensures a in AwardChillGuy(achievement, users, held, datesOf) <==>
      && achievement.Some? && a.user in users && a.user !in held
      && exists k :: 0 <= k < |datesOf(a.user)| && datesOf(a.user)[k] == a.day
                     && Streak(datesOf(a.user), a.day)
                     && forall m :: 0 <= m < k ==> !Streak(datesOf(a.user), datesOf(a.user)[m])
  {
    ChillGateRedundant(datesOf(a.user));
    var dates := datesOf(a.user);
    if exists k :: 0 <= k < |dates| && dates[k] == a.day && Streak(dates, a.day)
                   && forall m :: 0 <= m < k ==> !Streak(dates, dates[m]) {
      var k :| 0 <= k < |dates| && dates[k] == a.day && Streak(dates, a.day)
               && forall m :: 0 <= m < k ==> !Streak(dates, dates[m]);
      var j :| 0 <= j < |dates| && dates[j] == FirstStreak(dates, 0).value && Streak(dates, dates[j])
               && forall m :: 0 <= m < j ==> !Streak(dates, dates[m]);
      assert j == k;
    }
  }

  // 최애숭배 (db_achiv.py:314-383) and 39 (db_achiv.py:385-450)

  /** One `music_play` row of a user: the title and the day it was played. */
  type Play = (string, Day)

  /** The distinct days `title` was played. */
  function DaysOf(plays: seq<Play>, title: string): set<Day> {
    set p | p in plays && p.0 == title :: p.1
  }

  /** The plays of `title`, in order. */
  function PlaysOf(plays: seq<Play>, title: string): (r: seq<Play>)
    ensures forall p :: p in r <==> p in plays && p.0 == title
  {
    if |plays| == 0 then []
    else (if plays[0].0 == title then [plays[0]] else []) + PlaysOf(plays[1..], title)
  }

  /** `MAX(played_at)`: the latest day among non-empty plays. */
  function LastDay(plays: seq<Play>): (r: Day)
    requires |plays| > 0
    ensures exists p :: p in plays && p.1 == r
    ensures forall p :: p in plays ==> p.1 <= r
  {
    if |plays| == 1 then plays[0].1
    else
      var rest := LastDay(plays[1..]);
      assert forall p :: p in plays ==> p == plays[0] || p in plays[1..];
      if plays[0].1 >= rest then plays[0].1 else rest
  }

  /** `GROUP BY title ORDER BY days DESC LIMIT 1` over the first `n` plays:
      a title with the most distinct play days and that count. Among equal
      counts the title met first wins. */
  function TopTitle(plays: seq<Play>, n: nat): (r: Option<(string, nat)>)
    requires n <= |plays|
    ensures r.None? <==> n == 0
    ensures r.Some? ==>
      && r.value.1 == |DaysOf(plays, r.value.0)|
      && (exists k :: 0 <= k < n && plays[k].0 == r.value.0)
      && forall k :: 0 <= k < n ==> |DaysOf(plays, plays[k].0)| <= r.value.1
  {
    if n == 0 then None
    else
      var prev := TopTitle(plays, n - 1);
      var title := plays[n - 1].0;
      var count := |DaysOf(plays, title)|;
      if prev.None? || count > prev.value.1 then Some((title, count)) else prev
  }

  const FavouriteDays: nat := 30

  /** The award day of 최애숭배: the last day the top title was played,
      when it was played on at least thirty distinct days. The title is one
      with the most distinct days, and the day is its latest play. */
  function FavouriteDecision(plays: seq<Play>): (r: Option<Day>)
    ensures r.Some? ==> exists t ::
      && |DaysOf(plays, t)| >= FavouriteDays
      && (forall p :: p in plays ==> |DaysOf(plays, p.0)| <= |DaysOf(plays, t)|)
      && r.value in DaysOf(plays, t)
      && (forall d :: d in DaysOf(plays, t) ==> d <= r.value)
  {
    match TopTitle(plays, |plays|)
    case None => None
    case Some((title, count)) =>
      if count < FavouriteDays then None
      else
        var k :| 0 <= k < |plays| && plays[k].0 == title;
        assert plays[k] in PlaysOf(plays, title);
        var day := LastDay(PlaysOf(plays, title));
        TopTitleIsLatestOfMost(plays, title, count, day);
        Some(day)
  }

  /** The top title's count bounds every played title's, and the last day
      of its plays is the latest of its distinct days. */
  lemma TopTitleIsLatestOfMost(plays: seq<Play>, title: string, count: nat, day: Day)
    requires TopTitle(plays, |plays|) == Some((title, count))
    requires |PlaysOf(plays, title)| > 0 && day == LastDay(PlaysOf(plays, title))
    ensures forall p :: p in plays ==> |DaysOf(plays, p.0)| <= |DaysOf(plays, title)|
    ensures day in DaysOf(plays, title)
    ensures forall d :: d in DaysOf(plays, title) ==> d <= day
  {
    forall p | p in plays
      ensures |DaysOf(plays, p.0)| <= |DaysOf(plays, title)|
    {
      var k :| 0 <= k < |plays| && plays[k] == p;
    }
    forall d | d in DaysOf(plays, title)
      ensures d <= day
    {
      var p :| p in plays && p.0 == title && p.1 == d;
      assert p in PlaysOf(plays, title);
    }
  }

  /** A user's plays qualify for 최애숭배 exactly when some title was played
      on at least thirty distinct days. */
  lemma FavouriteQualifiesIff(plays: seq<Play>)
    ensures FavouriteDecision(plays).Some? <==> exists p :: p in plays && |DaysOf(plays, p.0)| >= FavouriteDays
  {
    if exists p :: p in plays && |DaysOf(plays, p.0)| >= FavouriteDays {
      var p :| p in plays && |DaysOf(plays, p.0)| >= FavouriteDays;
      var k :| 0 <= k < |plays| && plays[k] == p;
    }
  }

  /** `award_favorite_song_achievement`. */
  function AwardFavourite(achievement: Option<int>, users: seq<UserId>, held: set<UserId>,
                          playsOf: UserId -> seq<Play>): seq<Award>
  {
    if achievement.None? then [] else PerUser(users, held, u => FavouriteDecision(playsOf(u)))
  }

  const DistinctTitles: nat := 39

  /** The distinct titles a user played. */
  function Titles(plays: seq<Play>): set<string> {
    set p | p in plays :: p.0
  }

  lemma {:induction false} TitlesSize(plays: seq<Play>)
    ensures |Titles(plays)| <= |plays|
  {
    if |plays| > 0 {
      TitlesSize(plays[1..]);
      assert Titles(plays) == Titles(plays[1..]) + {plays[0].0};
    } else {
      assert Titles(plays) == {};
    }
  }

  /** The award day of 39: the last play day, when at least 39 distinct
      titles were played. */
  function ThirtyNineDecision(plays: seq<Play>): (r: Option<Day>)
    ensures r.Some? <==> |Titles(plays)| >= DistinctTitles
    ensures r.Some? ==> (exists p :: p in plays && p.1 == r.value) && forall p :: p in plays ==> p.1 <= r.value
  {
    TitlesSize(plays);
    if |Titles(plays)| >= DistinctTitles then Some(LastDay(plays)) else None
  }

  /** `award_39_achievement`. */
  function AwardThirtyNine(achievement: Option<int>, users: seq<UserId>, held: set<UserId>,
                           playsOf: UserId -> seq<Play>): seq<Award>
  {
    if achievement.None? then [] else PerUser(users, held, u => ThirtyNineDecision(playsOf(u)))
  }

  /** A user is awarded 39 exactly when the achievement exists, the user is
      listed, does not hold it and played at least 39 distinct titles; the
      day is the user's last play. */
  lemma ThirtyNineAwardIff(achievement: Option<int>, users: seq<UserId>, held: set<UserId>,
                           playsOf: UserId -> seq<Play>, a: Award)
    ensures a in AwardThirtyNine(achievement, users, held, playsOf) <==>
      && achievement.Some? && a.user in users && a.user !in held
      && |Titles(playsOf(a.user))| >= DistinctTitles
      && a.day == LastDay(playsOf(a.user))
  {
  }

  /** A user is awarded 최애숭배 exactly when the achievement exists, the
      user is listed, does not hold it and played some title on at least
      thirty distinct days. */
  lemma FavouriteAwardIff(achievement: Option<int>, users: seq<UserId>, held: set<UserId>,
                          playsOf: UserId -> seq<Play>, u: UserId)
    ensures (exists a :: a in AwardFavourite(achievement, users, held, playsOf) && a.user == u) <==>
      && achievement.Some? && u in users && u !in held
      && exists p :: p in playsOf(u) && |DaysOf(playsOf(u), p.0)| >= FavouriteDays
  {
    FavouriteQualifiesIff(playsOf(u));
    if achievement.Some? && u in users && u !in held && FavouriteDecision(playsOf(u)).Some? {
      assert Award(u, FavouriteDecision(playsOf(u)).value) in AwardFavourite(achievement, users, held, playsOf);
    }
  }
}

=== FILE: aggregate.dfy ===
/** The attendance half of `get_metrics` (log_analyzer.py:204-213, repeated
    in `analyze` at log_analyzer.py:177-186): every session's records in
    session order, the per-name total of their durations, and the filter
    that keeps a record only when its name's total reaches the minimum. */
module Aggregate {
  import opened Wrappers
  import opened LogLines
  import opened Segmenter
  import opened Attendance

  /** The first `n` results concatenated in order, or `None` as soon as one
      of them is `None`: the first failing `analyze_range` aborts the loop. */
  function Concat<T>(parts: seq<Option<seq<T>>>, n: nat): (r: Option<seq<T>>)
    requires n <= |parts|
    ensures r.None? <==> exists i :: 0 <= i < n && parts[i].None?
  {
    if n == 0 then Some([])
    else
      match Concat(parts, n - 1)
      case None => None
      case Some(acc) =>
        match parts[n - 1]
        case None => None
        case Some(items) => Some(acc + items)
  }

  /** An item of the concatenation is exactly an item of one of the parts. */
  lemma {:induction false} ConcatMember<T>(parts: seq<Option<seq<T>>>, n: nat, x: T)
    requires n <= |parts|
    requires Concat(parts, n).Some?
    ensures x in Concat(parts, n).value <==>
      exists i :: 0 <= i < n && parts[i].Some? && x in parts[i].value
  {
    if n > 0 {
      ConcatMember(parts, n - 1, x);
      if x in parts[n - 1].value {
        assert parts[n - 1].Some?;
      }
    }
  }

  /** What `analyze_range` yields for each session of `rs`, in order. */
  function Results(lines: seq<LogLine>, rs: seq<Range>, consent: set<string>): (r: seq<Option<seq<Record>>>)
    requires forall i :: 0 <= i < |rs| ==> rs[i].start <= rs[i].end < |lines|
    ensures |r| == |rs|
  {
    seq(|rs|, i requires 0 <= i < |rs| => AnalyzeRange(lines, rs[i].start, rs[i].end, consent))
  }

  /** The records of the sessions `rs`, concatenated in session order.
      `None` when any session's closing line carries no timestamp:
      `analyze_range` raises and the whole call fails. */
  function Collect(lines: seq<LogLine>, rs: seq<Range>, consent: set<string>): (r: Option<seq<Record>>)
    requires forall i :: 0 <= i < |rs| ==> rs[i].start <= rs[i].end < |lines|
    ensures r.None? <==> exists i :: 0 <= i < |rs| && lines[rs[i].end].stamp.None?
  {
    var parts := Results(lines, rs, consent);
    assert forall i :: 0 <= i < |rs| ==> (parts[i].None? <==> lines[rs[i].end].stamp.None?);
    Concat(parts, |rs|)
  }

  /** `attendance_total` after the records `logs`: a left fold that adds each
      record's duration to its name's entry. */
  function Totals(logs: seq<Record>): map<string, int> {
    if |logs| == 0 then map[]
    else
      var prev := Totals(logs[..|logs| - 1]);
      var rec := logs[|logs| - 1];
      prev[rec.name := Get(prev, rec.name, 0) + rec.duration]
  }

  /** Reference definition: the sum of the durations of `name`'s records. */
  function SumFor(logs: seq<Record>, name: string): int {
    if |logs| == 0 then 0
    else (if logs[0].name == name then logs[0].duration else 0) + SumFor(logs[1..], name)
  }

  lemma {:induction false} SumForAppend(logs: seq<Record>, rec: Record, name: string)
    ensures SumFor(logs + [rec], name) == SumFor(logs, name) + (if rec.name == name then rec.duration else 0)
  {
    if |logs| > 0 {
      assert (logs + [rec])[1..] == logs[1..] + [rec];
      SumForAppend(logs[1..], rec, name);
    }
  }

  /** The fold computes, for every name, the sum of its durations; a name
      without records reads as 0 (the `defaultdict` default). */
  lemma {:induction false} TotalsAreSums(logs: seq<Record>, name: string)
    ensures Get(Totals(logs), name, 0) == SumFor(logs, name)
  {
    if |logs| > 0 {
      var init := logs[..|logs| - 1];
      var rec := logs[|logs| - 1];
      TotalsAreSums(init, name);
      assert logs == init + [rec];
      SumForAppend(init, rec, name);
    }
  }

  /** The records of `logs` whose name's entry in `totals` reaches
      `minDuration`, in order. */
  function KeepWhere(logs: seq<Record>, totals: map<string, int>, minDuration: int): (r: seq<Record>)
    ensures forall rec :: rec in r <==> rec in logs && Get(totals, rec.name, 0) >= minDuration
    ensures |r| <= |logs|
  {
    if |logs| == 0 then []
    else
      var rest := KeepWhere(logs[1..], totals, minDuration);
      assert logs == [logs[0]] + logs[1..];
      if Get(totals, logs[0].name, 0) >= minDuration then [logs[0]] + rest else rest
  }

  /** `valid_attendance`: the name-global threshold. A record survives iff
      the total duration of all records with its name is at least
      `minDuration` seconds. */
  function KeepQualified(logs: seq<Record>, minDuration: int): (r: seq<Record>)
    ensures forall rec :: rec in r <==> rec in logs && SumFor(logs, rec.name) >= minDuration
  {
    var totals := Totals(logs);
    forall name
      ensures Get(totals, name, 0) == SumFor(logs, name)
    {
      TotalsAreSums(logs, name);
    }
    KeepWhere(logs, totals, minDuration)
  }

  /** The records of `logs` with name `name`, in order. */
  function Named(logs: seq<Record>, name: string): seq<Record> {
    if |logs| == 0 then []
    else (if logs[0].name == name then [logs[0]] else []) + Named(logs[1..], name)
  }

  lemma {:induction false} KeepWhereNamed(logs: seq<Record>, totals: map<string, int>,
                                          minDuration: int, name: string)
    ensures Named(KeepWhere(logs, totals, minDuration), name) ==
      if Get(totals, name, 0) >= minDuration then Named(logs, name) else []
  {
    if |logs| > 0 {
      KeepWhereNamed(logs[1..], totals, minDuration, name);
      var rest := KeepWhere(logs[1..], totals, minDuration);
      if Get(totals, logs[0].name, 0) >= minDuration {
        assert ([logs[0]] + rest)[1..] == rest;
      }
    }
  }

  /** All or none: the threshold keeps every record of a name, in order, or
      drops every one of them. */
  lemma KeepQualifiedAllOrNone(logs: seq<Record>, minDuration: int, name: string)
    ensures Named(KeepQualified(logs, minDuration), name) ==
      if SumFor(logs, name) >= minDuration then Named(logs, name) else []
  {
    TotalsAreSums(logs, name);
    KeepWhereNamed(logs, Totals(logs), minDuration, name);
  }

  /** Attendance records always have positive durations, so a name's total
      is positive exactly when it has a record, and with a non-positive
      minimum nothing is dropped. */
  lemma {:induction false} PositiveTotals(logs: seq<Record>, name: string)
    requires forall rec :: rec in logs ==> rec.duration > 0
    ensures SumFor(logs, name) >= 0
    ensures SumFor(logs, name) > 0 <==> exists rec :: rec in logs && rec.name == name
  {
    if |logs| > 0 {
      assert forall rec :: rec in logs[1..] ==> rec in logs;
      PositiveTotals(logs[1..], name);
      assert logs[0] in logs;
      assert forall rec :: rec in logs ==> rec == logs[0] || rec in logs[1..];
    }
  }
}

=== FILE: attendance.dfy ===
/** Per-range attendance reconstruction `analyze_range`
    (log_analyzer.py:83-115) and the name-global minimum-duration filter of
    `get_metrics` (log_analyzer.py:204-213, the same code as
    log_analyzer.py:177-186 in `analyze`). */
module Attendance {
  import opened Wrappers
  import opened LogLines
  import opened Segmenter

  /** An attendance record: a name, the first join, the leave time and
      `end - start` in seconds. */
  datatype Record = Record(name: string, start: Timestamp, end: Timestamp, duration: int)

  /** One entry of the `join_times` dict. The dict is kept as a list so that
      its insertion order, which `join_times.items()` follows, is explicit. */
  datatype JoinEntry = JoinEntry(name: string, ts: Timestamp)

  /** The two dicts `analyze_range` fills while it scans a range. */
  datatype RangeState = RangeState(joins: seq<JoinEntry>, lefts: map<string, Timestamp>)

  /** Python's `d.get(k, default)`. */
  function Get<K, V>(m: map<K, V>, k: K, default: V): V {
    if k in m then m[k] else default
  }

  /** `name in join_times`. */
  predicate Joined(joins: seq<JoinEntry>, name: string) {
    exists k :: 0 <= k < |joins| && joins[k].name == name
  }

  /** The line's join pattern matches with the trimmed name `name`. */
  predicate JoinsAs(line: LogLine, name: string) {
    line.join.Some? && line.join.value.name == name
  }

  /** The line's left pattern matches with the trimmed name `name`. */
  predicate LeavesAs(line: LogLine, name: string) {
    line.left.Some? && line.left.value.name == name
  }

  /** The join half of the loop body: a join records its time only for a
      name not yet in `join_times`. */
  function AddJoin(joins: seq<JoinEntry>, line: LogLine): seq<JoinEntry> {
    match line.join
    case Some(c) => if Joined(joins, c.name) then joins else joins + [JoinEntry(c.name, c.ts)]
    case None => joins
  }

  /** The left half of the loop body: a left always overwrites. */
  function AddLeft(lefts: map<string, Timestamp>, line: LogLine): map<string, Timestamp> {
    match line.left
    case Some(c) => lefts[c.name := c.ts]
    case None => lefts
  }

  /** The loop body of `analyze_range` for one line; both patterns are tried
      on every line. */
  function RangeStep(st: RangeState, line: LogLine): RangeState {
    RangeState(AddJoin(st.joins, line), AddLeft(st.lefts, line))
  }

  /** The two dicts after lines `lo .. n-1`. */
  function ScanRange(lines: seq<LogLine>, lo: nat, n: nat): RangeState
    requires lo <= n <= |lines|
    decreases n - lo
  {
    if n == lo then RangeState([], map[])
    else RangeStep(ScanRange(lines, lo, n - 1), lines[n - 1])
  }

  /** Reference definition: the index of the first line in `lo .. hi-1`
      whose join name is `name`. */
  function FirstJoin(lines: seq<LogLine>, lo: nat, hi: nat, name: string): (r: Option<nat>)
    requires lo <= hi <= |lines|
    decreases hi - lo
    ensures r.Some? ==> lo <= r.value < hi && JoinsAs(lines[r.value], name)
    ensures r.Some? ==> forall j :: lo <= j < r.value ==> !JoinsAs(lines[j], name)
    ensures r.None? ==> forall j :: lo <= j < hi ==> !JoinsAs(lines[j], name)
  {
    if hi == lo then None
    else
      var p := FirstJoin(lines, lo, hi - 1, name);
      if p.Some? then p
      else if JoinsAs(lines[hi - 1], name) then Some(hi - 1)
      else None
  }

  /** Reference definition: the index of the last line in `lo .. hi-1`
      whose left name is `name`. */
  function LastLeft(lines: seq<LogLine>, lo: nat, hi: nat, name: string): (r: Option<nat>)
    requires lo <= hi <= |lines|
    decreases hi - lo
    ensures r.Some? ==> lo <= r.value < hi && LeavesAs(lines[r.value], name)
    ensures r.Some? ==> forall j :: r.value < j < hi ==> !LeavesAs(lines[j], name)
    ensures r.None? ==> forall j :: lo <= j < hi ==> !LeavesAs(lines[j], name)
  {
    if hi == lo then None
    else if LeavesAs(lines[hi - 1], name) then Some(hi - 1)
    else LastLeft(lines, lo, hi - 1, name)
  }

  /** `join_times` agrees with the reference search: it holds exactly the
      names with a join line, each with its first join time, in the order of
      those first joins. */
  ghost predicate JoinsAgree(lines: seq<LogLine>, lo: nat, n: nat, joins: seq<JoinEntry>)
    requires lo <= n <= |lines|
  {
    && (forall k :: 0 <= k < |joins| ==>
          && FirstJoin(lines, lo, n, joins[k].name).Some?
          && lines[FirstJoin(lines, lo, n, joins[k].name).value].join.value.ts == joins[k].ts)
    && (forall name :: FirstJoin(lines, lo, n, name).Some? ==> Joined(joins, name))
    && (forall a, b :: 0 <= a < b < |joins| ==>
          FirstJoin(lines, lo, n, joins[a].name).value < FirstJoin(lines, lo, n, joins[b].name).value)
  }

  /** `left_times` agrees with the reference search: it holds exactly the
      names with a left line, each with its last left time. */
  ghost predicate LeftsAgree(lines: seq<LogLine>, lo: nat, n: nat, lefts: map<string, Timestamp>)
    requires lo <= n <= |lines|
  {
    && (forall name :: name in lefts <==> LastLeft(lines, lo, n, name).Some?)
    && (forall name :: name in lefts ==>
          lefts[name] == lines[LastLeft(lines, lo, n, name).value].left.value.ts)
  }

  /** The reference search one line further: an earlier join stays first,
      otherwise the new line is the first join if it joins. */
  lemma FirstJoinNext(lines: seq<LogLine>, lo: nat, n: nat, x: string)
    requires lo < n <= |lines|
    ensures FirstJoin(lines, lo, n, x) ==
      if FirstJoin(lines, lo, n - 1, x).Some? then FirstJoin(lines, lo, n - 1, x)
      else if JoinsAs(lines[n - 1], x) then Some(n - 1) else None
  {
  }

  /** A line that adds nothing to `join_times` keeps the agreement. */
  lemma JoinStepKeeps(lines: seq<LogLine>, lo: nat, n: nat, prev: seq<JoinEntry>)
    requires lo < n <= |lines|
    requires JoinsAgree(lines, lo, n - 1, prev)
    requires lines[n - 1].join.Some? ==> Joined(prev, lines[n - 1].join.value.name)
    ensures JoinsAgree(lines, lo, n, prev)
  {
    forall k | 0 <= k < |prev|
      ensures FirstJoin(lines, lo, n, prev[k].name) == FirstJoin(lines, lo, n - 1, prev[k].name)
    {
      FirstJoinNext(lines, lo, n, prev[k].name);
    }
    forall x | FirstJoin(lines, lo, n, x).Some?
      ensures Joined(prev, x)
    {
      FirstJoinNext(lines, lo, n, x);
    }
  }

  /** A line whose name is new appends it to `join_times` and keeps the
      agreement. */
  lemma JoinStepAdds(lines: seq<LogLine>, lo: nat, n: nat, prev: seq<JoinEntry>)
    requires lo < n <= |lines|
    requires JoinsAgree(lines, lo, n - 1, prev)
    requires lines[n - 1].join.Some? && !Joined(prev, lines[n - 1].join.value.name)
    ensures JoinsAgree(lines, lo, n, prev + [JoinEntry(lines[n - 1].join.value.name, lines[n - 1].join.value.ts)])
  {
    var c := lines[n - 1].join.value;
    var cur := prev + [JoinEntry(c.name, c.ts)];
    FirstJoinNext(lines, lo, n, c.name);
    assert FirstJoin(lines, lo, n, c.name) == Some(n - 1);
    forall k | 0 <= k < |prev|
      ensures FirstJoin(lines, lo, n, prev[k].name) == FirstJoin(lines, lo, n - 1, prev[k].name)
    {
      FirstJoinNext(lines, lo, n, prev[k].name);
    }
    forall k | 0 <= k < |cur|
      ensures FirstJoin(lines, lo, n, cur[k].name).Some?
      ensures lines[FirstJoin(lines, lo, n, cur[k].name).value].join.value.ts == cur[k].ts
    {
      if k < |prev| {
        assert cur[k] == prev[k];
      }
    }
    forall x | FirstJoin(lines, lo, n, x).Some?
      ensures Joined(cur, x)
    {
      FirstJoinNext(lines, lo, n, x);
      if FirstJoin(lines, lo, n - 1, x).Some? {
        var k :| 0 <= k < |prev| && prev[k].name == x;
        assert cur[k].name == x;
      } else {
        assert cur[|prev|].name == x;
      }
    }
    forall a, b | 0 <= a < b < |cur|
      ensures FirstJoin(lines, lo, n, cur[a].name).value < FirstJoin(lines, lo, n, cur[b].name).value
    {
      assert cur[a] == prev[a];
      if b < |prev| {
        assert cur[b] == prev[b];
      }
    }
  }

  /** One line keeps `join_times` in agreement with the reference search. */
  lemma JoinStepAgrees(lines: seq<LogLine>, lo: nat, n: nat, prev: seq<JoinEntry>)
    requires lo < n <= |lines|
    requires JoinsAgree(lines, lo, n - 1, prev)
    ensures JoinsAgree(lines, lo, n, AddJoin(prev, lines[n - 1]))
  {
    var line := lines[n - 1];
    if line.join.Some? && !Joined(prev, line.join.value.name) {
      JoinStepAdds(lines, lo, n, prev);
    } else {
      JoinStepKeeps(lines, lo, n, prev);
    }
  }

  /** The join half of the loop invariant of `analyze_range`: first join
      wins. */
  lemma {:induction false} JoinsInvariant(lines: seq<LogLine>, lo: nat, n: nat)
    requires lo <= n <= |lines|
    ensures JoinsAgree(lines, lo, n, ScanRange(lines, lo, n).joins)
    decreases n - lo
  {
    if n > lo {
      JoinsInvariant(lines, lo, n - 1);
      var prev := ScanRange(lines, lo, n - 1);
      assert ScanRange(lines, lo, n) == RangeStep(prev, lines[n - 1]);
      JoinStepAgrees(lines, lo, n, prev.joins);
    }
  }

  /** The left half of the loop invariant of `analyze_range`: last left
      wins. */
  lemma {:induction false} LeftsInvariant(lines: seq<LogLine>, lo: nat, n: nat)
    requires lo <= n <= |lines|
    ensures LeftsAgree(lines, lo, n, ScanRange(lines, lo, n).lefts)
    decreases n - lo
  {
    if n > lo {
      var m := n - 1;
      LeftsInvariant(lines, lo, m);
      var line := lines[m];
      forall name
        ensures LastLeft(lines, lo, n, name) ==
          if LeavesAs(line, name) then Some(m) else LastLeft(lines, lo, m, name)
      {
      }
    }
  }

  /** The record loop of `analyze_range` over `join_times.items()`: skip a
      name outside a non-empty allow-list; end at the last left time or at
      `endTime`; emit only a positive duration. */
  function Emit(joins: seq<JoinEntry>, lefts: map<string, Timestamp>, endTime: Timestamp,
                consent: set<string>): (out: seq<Record>)
    ensures forall rec :: rec in out ==>
      && Allowed(consent, rec.name)
      && JoinEntry(rec.name, rec.start) in joins
      && rec.end == Get(lefts, rec.name, endTime)
      && rec.duration == rec.end - rec.start > 0
  {
    if |joins| == 0 then []
    else
      var e := joins[0];
      var rest := Emit(joins[1..], lefts, endTime, consent);
      var leave := Get(lefts, e.name, endTime);
      if !Allowed(consent, e.name) then rest
      else if leave - e.ts > 0 then [Record(e.name, e.ts, leave, leave - e.ts)] + rest
      else rest
  }

  /** Every allowed entry with a positive duration yields its record. */
  lemma {:induction false} EmitComplete(joins: seq<JoinEntry>, lefts: map<string, Timestamp>,
                                        endTime: Timestamp, consent: set<string>, e: JoinEntry)
    requires e in joins && Allowed(consent, e.name) && Get(lefts, e.name, endTime) - e.ts > 0
    ensures Record(e.name, e.ts, Get(lefts, e.name, endTime), Get(lefts, e.name, endTime) - e.ts)
              in Emit(joins, lefts, endTime, consent)
  {
    if joins[0] != e {
      EmitComplete(joins[1..], lefts, endTime, consent, e);
    }
  }

  /** `rank` strictly increases along the names of `out`. */
  ghost predicate RankIncreasing(out: seq<Record>, rank: string -> int) {
    forall a, b :: 0 <= a < b < |out| ==> rank(out[a].name) < rank(out[b].name)
  }

  lemma PrependRanked(x: Record, rest: seq<Record>, rank: string -> int)
    requires RankIncreasing(rest, rank)
    requires forall rec :: rec in rest ==> rank(x.name) < rank(rec.name)
    ensures RankIncreasing([x] + rest, rank)
  {
    var out := [x] + rest;
    forall a, b | 0 <= a < b < |out|
      ensures rank(out[a].name) < rank(out[b].name)
    {
      assert out[b] == rest[b - 1] && out[b] in rest;
      if a > 0 {
        assert out[a] == rest[a - 1];
      }
    }
  }

  /** `rank` strictly increases along the names of `joins`. */
  ghost predicate JoinsRanked(joins: seq<JoinEntry>, rank: string -> int) {
    forall i, j :: 0 <= i < j < |joins| ==> rank(joins[i].name) < rank(joins[j].name)
  }

  /** Dropping the first entry keeps the ranking, and the first entry
      ranks below every later one. */
  lemma RankedTail(joins: seq<JoinEntry>, rank: string -> int)
    requires |joins| > 0 && JoinsRanked(joins, rank)
    ensures JoinsRanked(joins[1..], rank)
    ensures forall e :: e in joins[1..] ==> rank(joins[0].name) < rank(e.name)
  {
    var tail := joins[1..];
    forall i, j | 0 <= i < j < |tail|
      ensures rank(tail[i].name) < rank(tail[j].name)
    {
      assert tail[i] == joins[i + 1] && tail[j] == joins[j + 1];
    }
    forall e | e in tail
      ensures rank(joins[0].name) < rank(e.name)
    {
      var k :| 0 <= k < |tail| && tail[k] == e;
      assert joins[k + 1] == tail[k];
    }
  }

  /** `Emit` keeps the order of `joins`: if some ranking of names increases
      along `joins`, it increases along the records. */
  lemma {:induction false} EmitOrder(joins: seq<JoinEntry>, lefts: map<string, Timestamp>,
                                     endTime: Timestamp, consent: set<string>, rank: string -> int)
    requires JoinsRanked(joins, rank)
    ensures RankIncreasing(Emit(joins, lefts, endTime, consent), rank)
  {
    if |joins| > 0 {
      var tail := joins[1..];
      RankedTail(joins, rank);
      EmitOrder(tail, lefts, endTime, consent, rank);
      var rest := Emit(tail, lefts, endTime, consent);
      forall rec | rec in rest
        ensures rank(joins[0].name) < rank(rec.name)
      {
        assert JoinEntry(rec.name, rec.start) in tail;
      }
      var e := joins[0];
      var leave := Get(lefts, e.name, endTime);
      PrependRanked(Record(e.name, e.ts, leave, leave - e.ts), rest, rank);
    }
  }

  /** The index of the first join line of `name`, or -1 without one. */
  ghost function FirstJoinRank(lines: seq<LogLine>, lo: nat, n: nat, name: string): int {
    if lo <= n <= |lines| then
      match FirstJoin(lines, lo, n, name)
      case Some(j) => j
      case None => -1
    else -1
  }

  /** Reference definition of what one range yields for `name`: nothing
      without a join line; otherwise start at the first join, end at the
      last left line or at the closing line's time, and only a positive
      duration counts. */
  ghost function ExpectedRecord(lines: seq<LogLine>, lo: nat, hi: nat, endTime: Timestamp,
                                name: string): Option<Record>
    requires lo <= hi <= |lines|
  {
    match FirstJoin(lines, lo, hi, name)
    case None => None
    case Some(j) =>
      var start := lines[j].join.value.ts;
      var end := match LastLeft(lines, lo, hi, name)
                 case None => endTime
                 case Some(l) => lines[l].left.value.ts;
      if end - start > 0 then Some(Record(name, start, end, end - start)) else None
  }

  /** `analyze_range(lines, lo, hi)`. `None` is the `ValueError` raised when
      the closing line's first 19 characters are not a timestamp. Otherwise
      the records are exactly the expected ones for the allowed names, one
      per name, in the order of the names' first joins. */
  function AnalyzeRange(lines: seq<LogLine>, lo: nat, hi: nat, consent: set<string>): (r: Option<seq<Record>>)
    requires lo <= hi < |lines|
    ensures r.None? <==> lines[hi].stamp.None?
    ensures r.Some? ==> forall rec :: rec in r.value ==>
      && Allowed(consent, rec.name)
      && rec.duration == rec.end - rec.start > 0
      && ExpectedRecord(lines, lo, hi + 1, lines[hi].stamp.value, rec.name) == Some(rec)
    ensures r.Some? ==> forall name ::
      Allowed(consent, name) && ExpectedRecord(lines, lo, hi + 1, lines[hi].stamp.value, name).Some? ==>
      ExpectedRecord(lines, lo, hi + 1, lines[hi].stamp.value, name).value in r.value
    ensures r.Some? ==> forall a, b :: 0 <= a < b < |r.value| ==>
      FirstJoinRank(lines, lo, hi + 1, r.value[a].name) < FirstJoinRank(lines, lo, hi + 1, r.value[b].name)
  {
    match lines[hi].stamp
    case None => None
    case Some(endTime) =>
      var st := ScanRange(lines, lo, hi + 1);
      JoinsInvariant(lines, lo, hi + 1);
      LeftsInvariant(lines, lo, hi + 1);
      var out := Emit(st.joins, st.lefts, endTime, consent);
      AnalyzeRangeSound(lines, lo, hi + 1, consent, endTime, st);
      AnalyzeRangeComplete(lines, lo, hi + 1, consent, endTime, st);
      AnalyzeRangeOrder(lines, lo, hi + 1, consent, endTime, st);
      Some(out)
  }

  /** Each emitted record is the expected record of its name; in particular
      a name seen only in left lines has no record. */
  lemma AnalyzeRangeSound(lines: seq<LogLine>, lo: nat, n: nat, consent: set<string>,
                          endTime: Timestamp, st: RangeState)
    requires lo <= n <= |lines|
    requires JoinsAgree(lines, lo, n, st.joins)
    requires LeftsAgree(lines, lo, n, st.lefts)
    ensures forall rec :: rec in Emit(st.joins, st.lefts, endTime, consent) ==>
      ExpectedRecord(lines, lo, n, endTime, rec.name) == Some(rec)
    ensures forall rec :: rec in Emit(st.joins, st.lefts, endTime, consent) ==>
      FirstJoin(lines, lo, n, rec.name).Some?
  {
    forall rec | rec in Emit(st.joins, st.lefts, endTime, consent)
      ensures ExpectedRecord(lines, lo, n, endTime, rec.name) == Some(rec)
    {
      var k :| 0 <= k < |st.joins| && st.joins[k] == JoinEntry(rec.name, rec.start);
      RecordSound(lines, lo, n, endTime, st, rec, k);
    }
  }

  lemma RecordSound(lines: seq<LogLine>, lo: nat, n: nat, endTime: Timestamp, st: RangeState,
                    rec: Record, k: nat)
    requires lo <= n <= |lines|
    requires JoinsAgree(lines, lo, n, st.joins)
    requires LeftsAgree(lines, lo, n, st.lefts)
    requires k < |st.joins| && st.joins[k] == JoinEntry(rec.name, rec.start)
    requires rec.end == Get(st.lefts, rec.name, endTime) && rec.duration == rec.end - rec.start > 0
    ensures ExpectedRecord(lines, lo, n, endTime, rec.name) == Some(rec)
  {
    assert FirstJoin(lines, lo, n, st.joins[k].name).Some?;
  }

  /** Each allowed name with an expected record has it emitted. */
  lemma AnalyzeRangeComplete(lines: seq<LogLine>, lo: nat, n: nat, consent: set<string>,
                             endTime: Timestamp, st: RangeState)
    requires lo <= n <= |lines|
    requires JoinsAgree(lines, lo, n, st.joins)
    requires LeftsAgree(lines, lo, n, st.lefts)
    ensures forall name ::
      Allowed(consent, name) && ExpectedRecord(lines, lo, n, endTime, name).Some? ==>
      ExpectedRecord(lines, lo, n, endTime, name).value in Emit(st.joins, st.lefts, endTime, consent)
  {
    forall name | Allowed(consent, name) && ExpectedRecord(lines, lo, n, endTime, name).Some?
      ensures ExpectedRecord(lines, lo, n, endTime, name).value in Emit(st.joins, st.lefts, endTime, consent)
    {
      NameComplete(lines, lo, n, consent, endTime, st, name);
    }
  }

  lemma NameComplete(lines: seq<LogLine>, lo: nat, n: nat, consent: set<string>,
                     endTime: Timestamp, st: RangeState, name: string)
    requires lo <= n <= |lines|
    requires JoinsAgree(lines, lo, n, st.joins)
    requires LeftsAgree(lines, lo, n, st.lefts)
    requires Allowed(consent, name) && ExpectedRecord(lines, lo, n, endTime, name).Some?
    ensures ExpectedRecord(lines, lo, n, endTime, name).value in Emit(st.joins, st.lefts, endTime, consent)
  {
    assert FirstJoin(lines, lo, n, name).Some?;
    assert Joined(st.joins, name);
    var k :| 0 <= k < |st.joins| && st.joins[k].name == name;
    EmitComplete(st.joins, st.lefts, endTime, consent, st.joins[k]);
  }

  /** Records come out in the order of their names' first join lines. */
  lemma AnalyzeRangeOrder(lines: seq<LogLine>, lo: nat, n: nat, consent: set<string>,
                          endTime: Timestamp, st: RangeState)
    requires lo <= n <= |lines|
    requires JoinsAgree(lines, lo, n, st.joins)
    ensures forall a, b :: 0 <= a < b < |Emit(st.joins, st.lefts, endTime, consent)| ==>
      FirstJoinRank(lines, lo, n, Emit(st.joins, st.lefts, endTime, consent)[a].name)
        < FirstJoinRank(lines, lo, n, Emit(st.joins, st.lefts, endTime, consent)[b].name)
  {
    var rank := (name: string) => FirstJoinRank(lines, lo, n, name);
    assert JoinsRanked(st.joins, rank) by {
      forall i, j | 0 <= i < j < |st.joins|
        ensures rank(st.joins[i].name) < rank(st.joins[j].name)
      {
      }
    }
    EmitOrder(st.joins, st.lefts, endTime, consent, rank);
  }
}

=== FILE: log_lines.dfy ===
/** A log line as the analyser's five regular expressions see it. The
    patterns themselves are not modelled: each line arrives already classified,
    carrying what each pattern captured (log_analyzer.py:19-25). Timestamps are
    whole seconds, the value `parse_time` derives from a
    `YYYY.MM.DD HH:MM:SS` text (log_analyzer.py:27-28). */
module LogLines {
  import opened Wrappers
  import opened Text

  /** Seconds since an arbitrary epoch. */
  type Timestamp = nat

  /** A player-join or player-left match: the timestamp group and the name,
      already trimmed as `analyze_range` trims it (log_analyzer.py:93, 100).
      Build them with `JoinCapture` and `LeftCapture`. */
  datatype Capture = Capture(ts: Timestamp, name: string)

  /** A video-play match: timestamp, URL and the trailing metadata field. */
  datatype VideoCapture = VideoCapture(ts: Timestamp, url: string, meta: string)

  /** One classified line.
      - `stamp`: `parse_time` of the first 19 characters; `None` when they
        are not a valid timestamp (strptime raises `ValueError`).
      - `enter`: the room-enter pattern for the configured room matches.
      - `leave`: one of the two room-leave markers matches.
      - `join`, `left`, `video`: the captures of the other three patterns.
      The five patterns are independent: one line may match several. */
  datatype LogLine = LogLine(
    stamp: Option<Timestamp>,
    enter: bool,
    leave: bool,
    join: Option<Capture>,
    left: Option<Capture>,
    video: Option<VideoCapture>)

  /** The join name is all text after the `OnPlayerJoinComplete ` marker,
      trimmed. */
  function JoinCapture(ts: Timestamp, afterMarker: string): (r: Capture)
    ensures r.ts == ts
    ensures r.name == [] || (!IsSpace(r.name[0]) && !IsSpace(r.name[|r.name| - 1]))
    ensures forall c :: c in afterMarker && !IsSpace(c) ==> c in r.name
  {
    StripByEnds(afterMarker, IsSpace);
    StripKeepsInner(afterMarker);
    Capture(ts, Strip(afterMarker))
  }

  /** The left name is the text after the `OnPlayerLeft ` marker up to the
      first `(`, trimmed. */
  function LeftCapture(ts: Timestamp, afterMarker: string): (r: Capture)
    ensures r.ts == ts
    ensures r.name == [] || (!IsSpace(r.name[0]) && !IsSpace(r.name[|r.name| - 1]))
    ensures '(' !in r.name
  {
    StripByEnds(UpTo(afterMarker, '('), IsSpace);
    StripKeepsOnly(UpTo(afterMarker, '('), '(');
    Capture(ts, Strip(UpTo(afterMarker, '(')))
  }

  /** Every character of `s` that is not whitespace survives `strip`. */
  lemma StripKeepsInner(s: string)
    ensures forall c :: c in s && !IsSpace(c) ==> c in Strip(s)
  {
    StripByInfix(s, IsSpace);
    var lead := LeadCount(s, IsSpace);
    var r := Strip(s);
    forall c | c in s && !IsSpace(c)
      ensures c in Strip(s)
    {
      var k :| 0 <= k < |s| && s[k] == c;
      assert r[k - lead] == s[k];
    }
  }

  /** `strip` introduces no character: one absent from `s` is absent from
      the result. */
  lemma StripKeepsOnly(s: string, c: char)
    requires c !in s
    ensures c !in Strip(s)
  {
    StripByInfix(s, IsSpace);
    var lead := LeadCount(s, IsSpace);
    var r := Strip(s);
    forall i | 0 <= i < |r|
      ensures r[i] != c
    {
      assert r[i] == s[lead + i];
    }
  }

  /** The prefix of `s` before the first `c` (all of `s` if there is none). */
  function UpTo(s: string, c: char): (r: string)
    ensures r <= s && c !in r
    ensures |r| < |s| ==> s[|r|] == c
  {
    if |s| == 0 || s[0] == c then "" else [s[0]] + UpTo(s[1..], c)
  }

  /** The two captures are not symmetric: a name with a parenthesis joins
      under a text that keeps the `(` but leaves under the text before it,
      so its join and left lines never pair up. */
  lemma ParenthesisedNameDoesNotPair(ts: Timestamp, s: string)
    requires '(' in s
    ensures '(' in JoinCapture(ts, s).name
    ensures '(' !in LeftCapture(ts, s).name
    ensures JoinCapture(ts, s).name != LeftCapture(ts, s).name
  {
    assert !IsSpace('(');
  }

  /** The consent filter on a name or a requester (log_analyzer.py:104,
      150): an empty allow-list lets everybody through. */
  predicate Allowed(consent: set<string>, name: string) {
    consent == {} || name in consent
  }
}

=== FILE: metrics.dfy ===
/** `get_metrics` (log_analyzer.py:200-219): attendance first, then music,
    each sorted by time. `analyze` (log_analyzer.py:172-198) runs the same
    pipeline and prints it instead of returning it. */
module Metrics {
  import opened Wrappers
  import opened LogLines
  import opened Segmenter
  import opened Attendance
  import opened Aggregate
  import opened TitleCache
  import opened Music
  import opened Sorting

  /** The outcome of one run: `ParseFailed` is the `ValueError` a session
      whose closing line has no timestamp raises; otherwise both sorted
      lists and the title cache as the run leaves it. */
  datatype Outcome =
    | ParseFailed
    | Report(attendance: seq<Record>, music: seq<MusicEvent>, cache: map<string, string>)

  /** The sort key of the attendance list. */
  function ByStart(r: Record): int { r.start }

  /** The sort key of the music list. */
  function ByTimestamp(e: MusicEvent): int { e.ts }

  /** The records of every session, before the threshold. */
  function SessionRecords(lines: seq<LogLine>, consent: set<string>): Option<seq<Record>> {
    var rs := ExtractValidRanges(lines);
    Collect(lines, rs, consent)
  }

  /** Collecting fails exactly when some session's closing line has no
      timestamp. */
  lemma SessionRecordsFailIff(lines: seq<LogLine>, consent: set<string>)
    ensures SessionRecords(lines, consent).None? <==>
      exists s :: IsSession(lines, s) && lines[s.end].stamp.None?
  {
    var rs := ExtractValidRanges(lines);
    if SessionRecords(lines, consent).None? {
      var i :| 0 <= i < |rs| && lines[rs[i].end].stamp.None?;
      assert rs[i] in rs;
    } else {
      forall s | IsSession(lines, s)
        ensures lines[s.end].stamp.Some?
      {
        assert s in rs;
        var i :| 0 <= i < |rs| && rs[i] == s;
      }
    }
  }

  /** A collected record is exactly a record that `analyze_range` produces
      for one of the sessions of the file. */
  lemma SessionRecordsMember(lines: seq<LogLine>, consent: set<string>, rec: Record)
    requires SessionRecords(lines, consent).Some?
    ensures rec in SessionRecords(lines, consent).value <==>
      exists s :: IsSession(lines, s) && rec in AnalyzeRange(lines, s.start, s.end, consent).value
  {
    var rs := ExtractValidRanges(lines);
    var parts := Results(lines, rs, consent);
    ConcatMember(parts, |rs|, rec);
    if rec in SessionRecords(lines, consent).value {
      var i :| 0 <= i < |rs| && parts[i].Some? && rec in parts[i].value;
      assert rs[i] in rs;
    } else {
      forall s | IsSession(lines, s)
        ensures rec !in AnalyzeRange(lines, s.start, s.end, consent).value
      {
        assert s in rs;
        var i :| 0 <= i < |rs| && rs[i] == s;
        assert parts[i] == AnalyzeRange(lines, s.start, s.end, consent);
      }
    }
  }

  /** `get_metrics` with allow-list `consent`, minimum `minMinutes` minutes
      (`timedelta(minutes=min_minutes)`), the title cache `cache` as the
      cache file holds it, and the API key's presence and lookup. The
      attendance half runs to completion before the music half starts, so a
      failed run never touches the cache. */
  function GetMetrics(lines: seq<LogLine>, consent: set<string>, minMinutes: int,
                      cache: map<string, string>, hasKey: bool, lookup: string -> Lookup): (r: Outcome)
    ensures r.ParseFailed? <==>
      exists s :: IsSession(lines, s) && lines[s.end].stamp.None?
    ensures r.Report? ==> SortedBy(r.attendance, ByStart) && SortedBy(r.music, ByTimestamp)
    ensures r.Report? ==> forall rec :: rec in r.attendance <==>
      && rec in SessionRecords(lines, consent).value
      && SumFor(SessionRecords(lines, consent).value, rec.name) >= minMinutes * 60
    ensures r.Report? ==> forall k :: k in cache ==> k in r.cache && r.cache[k] == cache[k]
  {
    SessionRecordsFailIff(lines, consent);
    match SessionRecords(lines, consent)
    case None => ParseFailed
    case Some(logs) =>
      var kept := KeepQualified(logs, minMinutes * 60);
      var music := ExtractMusic(lines, |lines|, consent, cache, hasKey, lookup);
      EmittedEventsAreAllowed(lines, |lines|, consent, cache, hasKey, lookup);
      var attendance := SortBy(kept, ByStart);
      assert forall rec :: rec in attendance <==> rec in multiset(kept);
      Report(attendance, SortBy(music.out, ByTimestamp), music.cache)
  }

  /** The attendance list is the thresholded records, ordered by start; two
      records with the same start keep their session order. */
  lemma AttendanceIsStableSort(lines: seq<LogLine>, consent: set<string>, minMinutes: int,
                               cache: map<string, string>, hasKey: bool, lookup: string -> Lookup)
    requires SessionRecords(lines, consent).Some?
    ensures var r := GetMetrics(lines, consent, minMinutes, cache, hasKey, lookup);
      var kept := KeepQualified(SessionRecords(lines, consent).value, minMinutes * 60);
      && r.Report?
      && multiset(r.attendance) == multiset(kept)
      && forall t :: WithKey(r.attendance, ByStart, t) == WithKey(kept, ByStart, t)
  {
  }

  /** The music list is every emitted event, ordered by timestamp, with
      events of equal timestamp in emission order. */
  lemma MusicIsStableSort(lines: seq<LogLine>, consent: set<string>, minMinutes: int,
                          cache: map<string, string>, hasKey: bool, lookup: string -> Lookup)
    requires SessionRecords(lines, consent).Some?
    ensures var r := GetMetrics(lines, consent, minMinutes, cache, hasKey, lookup);
      var out := ExtractMusic(lines, |lines|, consent, cache, hasKey, lookup).out;
      && r.Report?
      && multiset(r.music) == multiset(out)
      && forall t :: WithKey(r.music, ByTimestamp, t) == WithKey(out, ByTimestamp, t)
  {
  }

  /** The threshold is per name over the whole file: either every record of
      a name reaches the report or none does. */
  lemma ReportAllOrNone(lines: seq<LogLine>, consent: set<string>, minMinutes: int,
                        cache: map<string, string>, hasKey: bool, lookup: string -> Lookup,
                        a: Record, b: Record)
    requires GetMetrics(lines, consent, minMinutes, cache, hasKey, lookup).Report?
    requires a in SessionRecords(lines, consent).value && b in SessionRecords(lines, consent).value
    requires a.name == b.name
    ensures var r := GetMetrics(lines, consent, minMinutes, cache, hasKey, lookup);
      a in r.attendance <==> b in r.attendance
  {
  }
}

=== FILE: music.dfy ===
/** The music-event extractor `extract_music_logs` (log_analyzer.py:117-169):
    metadata parsing, the consent filter, YouTube title rewriting through the
    title cache, and duplicate suppression against the last five accepted
    events (`deque(maxlen=5)`). */
module Music {
  import opened Wrappers
  import opened Text
  import opened LogLines
  import opened TitleCache

  /** An emitted music event. */
  datatype MusicEvent = MusicEvent(ts: Timestamp, title: string, user: string, url: string)

  /** The `(title, user)` pair duplicates are judged by. */
  datatype Key = Key(title: string, user: string)

  function KeyOf(e: MusicEvent): Key {
    Key(e.title, e.user)
  }

  /** The number of entries the duplicate window keeps. */
  const WindowSize: nat := 5

  // ---------------------------------------------------------------------
  // Metadata parsing (log_analyzer.py:128-147)
  // ---------------------------------------------------------------------

  /** The title and user before the final trims: the part after the first
      `" : "` split at its last `(` when both markers occur; otherwise the
      whole field split at its last `(`; otherwise the trimmed field and
      `"Unknown"`. `None` is the `ValueError` of a split that finds no `(`. */
  function RawMeta(meta: string): Option<(string, string)> {
    if Contains(meta, " : ") && '(' in meta then RSplitChar(AfterFirst(meta, " : "), '(')
    else if '(' in meta then RSplitChar(meta, '(')
    else Some((Strip(meta), "Unknown"))
  }

  /** The `(title, user)` a metadata field yields, or `None` when the event
      is dropped. The drop happens exactly when the field has a `" : "` and a
      `(`, but no `(` after its first `" : "`. */
  function ParseMeta(meta: string): (r: Option<(string, string)>)
    ensures r.None? <==> Contains(meta, " : ") && '(' in meta && '(' !in AfterFirst(meta, " : ")
  {
    match RawMeta(meta)
    case None => None
    case Some((title, user)) => Some((Strip(title), StripParens(user)))
  }

  /** `t` has no leading or trailing whitespace. */
  predicate Trimmed(t: string) {
    t == [] || (!IsSpace(t[0]) && !IsSpace(t[|t| - 1]))
  }

  /** A field without `(` yields its trimmed text and the user `"Unknown"`. */
  lemma ParseMetaNoParen(meta: string)
    requires '(' !in meta
    ensures ParseMeta(meta) == Some((Strip(meta), "Unknown"))
  {
    StripByEnds(meta, IsSpace);
    StripByIdentity(Strip(meta), IsSpace);
    StripByIdentity("Unknown", c => c == ')');
  }

  lemma GlueParts(t: string, u: string)
    ensures t + " (" + u + ")" == (t + " ") + ['('] + (u + ")")
  {
  }

  /** The text before the last `(` and after it lose their trailing space and
      closing parenthesis. */
  lemma SplitTitleUser(t: string, u: string)
    requires Trimmed(t)
    requires '(' !in u && ')' !in u
    ensures RSplitChar(t + " (" + u + ")", '(') == Some((t + " ", u + ")"))
    ensures Strip(t + " ") == t && StripParens(u + ")") == u
  {
    GlueParts(t, u);
    RSplitCharJoin(t + " ", '(', u + ")");
    StripByTrailing(t, ' ', IsSpace);
    StripByTrailing(u, ')', c => c == ')');
  }

  /** Round trip without a prefix: `"<title> (<user>)"` parses back to its
      title and user when neither contains `:` and the user has no
      parenthesis. */
  lemma ParseMetaTitleUser(t: string, u: string)
    requires Trimmed(t) && ':' !in t
    requires '(' !in u && ')' !in u && ':' !in u
    ensures ParseMeta(t + " (" + u + ")") == Some((t, u))
  {
    var meta := t + " (" + u + ")";
    assert ':' !in meta;
    MissingCharNotContained(meta, " : ", 1);
    assert meta[|t| + 1] == '(';
    SplitTitleUser(t, u);
  }

  /** With no `:` in the prefix, the first `" : "` is the one after it. */
  lemma FirstSeparator(p: string, q: string)
    requires ':' !in p
    ensures Contains(p + " : " + q, " : ")
    ensures AfterFirst(p + " : " + q, " : ") == q
  {
    var meta := p + " : " + q;
    assert OccursAt(meta, " : ", |p|) by { assert meta[|p|..|p| + 3] == " : "; }
    forall j: nat | j < |p|
      ensures !OccursAt(meta, " : ", j)
    {
      if j + 1 < |p| {
        assert meta[j + 1] == p[j + 1];
      } else {
        assert meta[j + 1] == ' ';
      }
      assert j + 3 <= |meta| ==> meta[j..j + 3][1] == meta[j + 1];
    }
    AfterFirstAt(meta, " : ", |p|);
    assert meta[|p| + 3..] == q;
  }

  /** Round trip with a prefix: `"<prefix> : <title> (<user>)"` parses back
      to its title and user when the prefix has no `:`. The title may contain
      anything, even `(` or `" : "`. */
  lemma ParseMetaPrefixed(p: string, t: string, u: string)
    requires ':' !in p
    requires Trimmed(t)
    requires '(' !in u && ')' !in u
    ensures ParseMeta(p + " : " + t + " (" + u + ")") == Some((t, u))
  {
    var rest := t + " (" + u + ")";
    var meta := p + " : " + rest;
    assert p + " : " + t + " (" + u + ")" == meta;
    FirstSeparator(p, rest);
    assert '(' in meta by {
      assert meta[|p| + 3 + |t| + 1] == rest[|t| + 1] == '(';
    }
    assert RawMeta(meta) == RSplitChar(rest, '(');
    SplitTitleUser(t, u);
  }

  /** The surprising drop: a `(` that occurs only before the first `" : "`
      makes the split fail, and the event is lost. */
  lemma ParenOnlyBeforeSeparatorDrops(p: string, q: string)
    requires ':' !in p && '(' in p && '(' !in q
    ensures ParseMeta(p + " : " + q) == None
  {
    var meta := p + " : " + q;
    FirstSeparator(p, q);
    var i :| 0 <= i < |p| && p[i] == '(';
    assert meta[i] == '(';
  }

  // ---------------------------------------------------------------------
  // YouTube video ids (log_analyzer.py:154-157)
  // ---------------------------------------------------------------------

  /** `"youtu.be" in url or "youtube.com" in url`. */
  predicate IsYouTube(url: string) {
    Contains(url, "youtu.be") || Contains(url, "youtube.com")
  }

  /** A character of `[\w\-]`, with `\w` read as ASCII letters, digits and
      `_`. */
  predicate IsIdChar(c: char) {
    ('a' <= c <= 'z') || ('A' <= c <= 'Z') || ('0' <= c <= '9') || c == '_' || c == '-'
  }

  /** Where the id group would start if `(?:v=|be/)([\w\-]+)` matched at
      position `p`: right after `v=` or `be/`, provided one id character
      follows. */
  function IdMarker(url: string, p: nat): (g: Option<nat>)
    ensures g.Some? ==> g.value < |url| && IsIdChar(url[g.value])
    ensures g.Some? ==> (g.value == p + 2 && OccursAt(url, "v=", p))
                        || (g.value == p + 3 && OccursAt(url, "be/", p))
  {
    if OccursAt(url, "v=", p) && p + 2 < |url| && IsIdChar(url[p + 2]) then Some(p + 2)
    else if OccursAt(url, "be/", p) && p + 3 < |url| && IsIdChar(url[p + 3]) then Some(p + 3)
    else None
  }

  /** The leftmost position at or after `from` where the pattern matches. */
  function FirstMarker(url: string, from: nat): (r: Option<nat>)
    decreases |url| - from
    ensures r.Some? ==> from <= r.value && IdMarker(url, r.value).Some?
    ensures r.Some? ==> forall q: nat :: from <= q < r.value ==> IdMarker(url, q).None?
    ensures r.None? ==> forall q: nat :: from <= q ==> IdMarker(url, q).None?
  {
    if from >= |url| then None
    else if IdMarker(url, from).Some? then Some(from)
    else FirstMarker(url, from + 1)
  }

  /** `[\w\-]+` matched greedily at `g`: the longest run of id characters
      starting there. */
  function IdRun(url: string, g: nat): (r: string)
    requires g < |url| && IsIdChar(url[g])
    ensures |r| > 0 && g + |r| <= |url| && url[g..g + |r|] == r
    ensures forall k :: 0 <= k < |r| ==> IsIdChar(r[k])
    ensures g + |r| == |url| || !IsIdChar(url[g + |r|])
  {
    var rest := url[g..];
    var n := LeadCount(rest, IsIdChar);
    assert rest[0] == url[g];
    assert url[g..g + n] == rest[..n];
    rest[..n]
  }

  /** `re.search(r"(?:v=|be/)([\w\-]+)", url).group(1)`: at the leftmost
      match, the longest run of id characters. */
  function VideoId(url: string): (r: Option<string>)
    ensures r.None? <==> forall q: nat :: IdMarker(url, q).None?
    ensures r.Some? ==> r.value == IdRun(url, IdMarker(url, FirstMarker(url, 0).value).value)
  {
    match FirstMarker(url, 0)
    case None => None
    case Some(p) => Some(IdRun(url, IdMarker(url, p).value))
  }

  /** The title of a video line after the YouTube rewrite, and the cache
      afterwards: for a YouTube URL with an id the resolved title replaces
      the metadata title; otherwise nothing changes. The resolved title is
      the cached one, else the first item of a successful request, else the
      id itself. */
  function Retitle(title: string, url: string, cache: map<string, string>, hasKey: bool,
                   lookup: string -> Lookup): (r: (string, map<string, string>))
    ensures !(IsYouTube(url) && VideoId(url).Some?) ==> r == (title, cache)
    ensures IsYouTube(url) && VideoId(url).Some? ==>
      var id := VideoId(url).value;
      && (id in cache ==> r == (cache[id], cache))
      && (id !in cache && (!hasKey || lookup(id).LookupFailed?) ==> r == (id, cache))
      && (id !in cache && hasKey && lookup(id).Items? ==>
            && r.0 == (if |lookup(id).titles| > 0 then lookup(id).titles[0] else id)
            && r.1 == cache[id := r.0])
  {
    if IsYouTube(url) && VideoId(url).Some? then
      var res := Resolve(cache, hasKey, lookup, VideoId(url).value);
      (res.title, res.cache)
    else (title, cache)
  }

  // ---------------------------------------------------------------------
  // The duplicate window and the extraction loop (log_analyzer.py:118-169)
  // ---------------------------------------------------------------------

  /** The last `WindowSize` elements of `s` (all of them when there are
      fewer). */
  function LastWindow<T>(s: seq<T>): (r: seq<T>)
    ensures |r| <= WindowSize && |r| <= |s| && r == s[|s| - |r|..]
    ensures |s| >= WindowSize ==> |r| == WindowSize
  {
    if |s| <= WindowSize then s else s[|s| - WindowSize..]
  }

  /** `deque.append` on a deque with `maxlen=5`: the oldest entry is evicted
      when the deque is full. */
  function Push(w: seq<Key>, k: Key): seq<Key> {
    if |w| < WindowSize then w + [k] else w[1..] + [k]
  }

  /** Pushing onto the window of a history is the window of the extended
      history. */
  lemma PushWindow(s: seq<Key>, k: Key)
    ensures Push(LastWindow(s), k) == LastWindow(s + [k])
  {
    if |s| >= WindowSize {
      assert LastWindow(s)[1..] + [k] == (s + [k])[|s| + 1 - WindowSize..];
    }
  }

  /** The keys of the emitted events, in order. */
  function Keys(out: seq<MusicEvent>): (r: seq<Key>)
    ensures |r| == |out| && forall i :: 0 <= i < |out| ==> r[i] == KeyOf(out[i])
  {
    seq(|out|, i requires 0 <= i < |out| => KeyOf(out[i]))
  }

  /** The extractor's state after a prefix of the lines: the duplicate
      window, the title cache, and the events emitted so far. */
  datatype MusicState = MusicState(window: seq<Key>, cache: map<string, string>, out: seq<MusicEvent>)

  /** What a video line contributes before the duplicate test: `None` when
      its metadata field fails to split or its requester is outside a
      non-empty allow-list (nothing changes, not even the cache); otherwise
      the event with its rewritten title, and the cache after the rewrite. */
  function Candidate(v: VideoCapture, consent: set<string>, cache: map<string, string>,
                     hasKey: bool, lookup: string -> Lookup): (c: Option<(MusicEvent, map<string, string>)>)
    ensures c.None? <==> ParseMeta(v.meta).None? || !Allowed(consent, ParseMeta(v.meta).value.1)
    ensures c.Some? ==> && c.value.0.ts == v.ts && c.value.0.url == v.url
                        && c.value.0.user == ParseMeta(v.meta).value.1
                        && Allowed(consent, c.value.0.user)
    ensures c.Some? ==> forall k :: k in cache ==> k in c.value.1 && c.value.1[k] == cache[k]
    ensures c.Some? ==>
      c.value.0.title == (if IsYouTube(v.url) && VideoId(v.url).Some?
                          then Resolve(cache, hasKey, lookup, VideoId(v.url).value).title
                          else ParseMeta(v.meta).value.0)
  {
    match ParseMeta(v.meta)
    case None => None
    case Some((title, user)) =>
      if !Allowed(consent, user) then None
      else
        var (title', cache') := Retitle(title, v.url, cache, hasKey, lookup);
        Some((MusicEvent(v.ts, title', user, v.url), cache'))
  }

  /** The duplicate test: an event whose key is in the window is suppressed
      but its cache is kept; any other event is emitted and its key pushed. */
  function Accept(st: MusicState, c: Option<(MusicEvent, map<string, string>)>): (r: MusicState)
    ensures c.None? ==> r == st
    ensures c.Some? && KeyOf(c.value.0) in st.window ==>
      r.out == st.out && r.window == st.window && r.cache == c.value.1
    ensures c.Some? && KeyOf(c.value.0) !in st.window ==>
      r.out == st.out + [c.value.0] && r.window == Push(st.window, KeyOf(c.value.0)) && r.cache == c.value.1
  {
    match c
    case None => st
    case Some((e, cache')) =>
      if KeyOf(e) in st.window then st.(cache := cache')
      else MusicState(Push(st.window, KeyOf(e)), cache', st.out + [e])
  }

  /** One loop iteration. A line without a video match changes nothing. The
      title is rewritten (which may fill the cache) before the duplicate
      test, so a suppressed event still leaves its cache entry behind. */
  function MusicStep(st: MusicState, line: LogLine, consent: set<string>, hasKey: bool,
                     lookup: string -> Lookup): MusicState
  {
    match line.video
    case None => st
    case Some(v) => Accept(st, Candidate(v, consent, st.cache, hasKey, lookup))
  }

  /** The duplicate test either leaves the events and the window alone, or
      appends one event whose key was not in the window and pushes that
      key. */
  lemma AcceptShape(st: MusicState, c: Option<(MusicEvent, map<string, string>)>)
    ensures var r := Accept(st, c);
      || (r.out == st.out && r.window == st.window)
      || (&& |r.out| == |st.out| + 1 && r.out == st.out + [r.out[|st.out|]]
          && KeyOf(r.out[|st.out|]) !in st.window
          && r.window == Push(st.window, KeyOf(r.out[|st.out|])))
  {
  }

  /** The state after the first `n` lines, starting from the cache `cache`. */
  function ExtractMusic(lines: seq<LogLine>, n: nat, consent: set<string>, cache: map<string, string>,
                        hasKey: bool, lookup: string -> Lookup): MusicState
    requires n <= |lines|
  {
    if n == 0 then MusicState([], cache, [])
    else MusicStep(ExtractMusic(lines, n - 1, consent, cache, hasKey, lookup), lines[n - 1],
                   consent, hasKey, lookup)
  }

  /** The duplicate test keeps the window equal to the keys of the last
      five events. */
  lemma AcceptKeepsWindow(st: MusicState, c: Option<(MusicEvent, map<string, string>)>)
    requires st.window == LastWindow(Keys(st.out))
    ensures var r := Accept(st, c);
      r.window == LastWindow(Keys(r.out))
  {
    var r := Accept(st, c);
    AcceptShape(st, c);
    if |r.out| != |st.out| {
      var e := r.out[|st.out|];
      assert Keys(r.out) == Keys(st.out) + [KeyOf(e)];
      PushWindow(Keys(st.out), KeyOf(e));
    }
  }

  /** A step keeps the window equal to the keys of the last five events. */
  lemma StepKeepsWindow(st: MusicState, line: LogLine, consent: set<string>, hasKey: bool,
                        lookup: string -> Lookup)
    requires st.window == LastWindow(Keys(st.out))
    ensures var r := MusicStep(st, line, consent, hasKey, lookup);
      r.window == LastWindow(Keys(r.out))
  {
    if line.video.Some? {
      AcceptKeepsWindow(st, Candidate(line.video.value, consent, st.cache, hasKey, lookup));
    }
  }

  /** The window always holds the keys of the last five emitted events. */
  lemma WindowInvariant(lines: seq<LogLine>, n: nat, consent: set<string>,
                        cache: map<string, string>, hasKey: bool, lookup: string -> Lookup)
    requires n <= |lines|
    ensures var st := ExtractMusic(lines, n, consent, cache, hasKey, lookup);
      st.window == LastWindow(Keys(st.out))
  {
    HealthyInvariant(lines, n, consent, cache, hasKey, lookup);
  }

  /** The events that survive parsing and consent are exactly the ones
      whose key differs from the keys of the last five emitted events; a
      suppressed event never enters the window. */
  lemma StepEmitsIffFresh(lines: seq<LogLine>, n: nat, consent: set<string>,
                          cache: map<string, string>, hasKey: bool, lookup: string -> Lookup)
    requires n < |lines|
    requires lines[n].video.Some? && ParseMeta(lines[n].video.value.meta).Some?
    requires Allowed(consent, ParseMeta(lines[n].video.value.meta).value.1)
    ensures var prev := ExtractMusic(lines, n, consent, cache, hasKey, lookup);
      var st := ExtractMusic(lines, n + 1, consent, cache, hasKey, lookup);
      var v := lines[n].video.value;
      var parsed := ParseMeta(v.meta).value;
      var title := Retitle(parsed.0, v.url, prev.cache, hasKey, lookup).0;
      && (Key(title, parsed.1) !in LastWindow(Keys(prev.out)) <==>
            st.out == prev.out + [MusicEvent(v.ts, title, parsed.1, v.url)])
      && (Key(title, parsed.1) in LastWindow(Keys(prev.out)) <==> st.out == prev.out)
  {
    WindowInvariant(lines, n, consent, cache, hasKey, lookup);
  }

  /** No two events within `WindowSize` places of each other share a key. */
  ghost predicate NoNearRepeat(out: seq<MusicEvent>) {
    forall i, j :: 0 <= i < j < |out| && j - i <= WindowSize ==> KeyOf(out[i]) != KeyOf(out[j])
  }

  /** Appending an event whose key is outside the window of the keys so far
      keeps `NoNearRepeat`. */
  lemma AppendFresh(out: seq<MusicEvent>, e: MusicEvent)
    requires NoNearRepeat(out)
    requires KeyOf(e) !in LastWindow(Keys(out))
    ensures NoNearRepeat(out + [e])
  {
    var m := |out|;
    var ext := out + [e];
    var w := LastWindow(Keys(out));
    forall i | 0 <= i < m && m - i <= WindowSize
      ensures KeyOf(ext[i]) != KeyOf(e)
    {
      assert w[i - (m - |w|)] == Keys(out)[i];
    }
    forall i, j | 0 <= i < j < |ext| && j - i <= WindowSize
      ensures KeyOf(ext[i]) != KeyOf(ext[j])
    {
      if j < m {
        assert ext[i] == out[i] && ext[j] == out[j];
      }
    }
  }

  /** The duplicate test keeps `NoNearRepeat` when the window matches the
      history. */
  lemma AcceptKeepsNoNearRepeat(st: MusicState, c: Option<(MusicEvent, map<string, string>)>)
    requires NoNearRepeat(st.out) && st.window == LastWindow(Keys(st.out))
    ensures NoNearRepeat(Accept(st, c).out)
  {
    var out := Accept(st, c).out;
    AcceptShape(st, c);
    if |out| != |st.out| {
      AppendFresh(st.out, out[|st.out|]);
    }
  }

  /** A step keeps `NoNearRepeat` when the window matches the history. */
  lemma StepKeepsNoNearRepeat(st: MusicState, line: LogLine, consent: set<string>, hasKey: bool,
                              lookup: string -> Lookup)
    requires NoNearRepeat(st.out) && st.window == LastWindow(Keys(st.out))
    ensures NoNearRepeat(MusicStep(st, line, consent, hasKey, lookup).out)
  {
    if line.video.Some? {
      AcceptKeepsNoNearRepeat(st, Candidate(line.video.value, consent, st.cache, hasKey, lookup));
    }
  }

  /** The two facts the extractor keeps: the window mirrors the history,
      and the history has no near repeat. */
  ghost predicate Healthy(st: MusicState) {
    st.window == LastWindow(Keys(st.out)) && NoNearRepeat(st.out)
  }

  lemma {:induction false} HealthyInvariant(lines: seq<LogLine>, n: nat, consent: set<string>,
                                            cache: map<string, string>, hasKey: bool,
                                            lookup: string -> Lookup)
    requires n <= |lines|
    ensures Healthy(ExtractMusic(lines, n, consent, cache, hasKey, lookup))
  {
    if n > 0 {
      HealthyInvariant(lines, n - 1, consent, cache, hasKey, lookup);
      var prev := ExtractMusic(lines, n - 1, consent, cache, hasKey, lookup);
      StepKeepsWindow(prev, lines[n - 1], consent, hasKey, lookup);
      StepKeepsNoNearRepeat(prev, lines[n - 1], consent, hasKey, lookup);
    }
  }

  /** No two emitted events within five places of each other share a key:
      a repeat is only emitted once five other events have been accepted
      after it. */
  lemma NoRepeatWithinWindow(lines: seq<LogLine>, n: nat, consent: set<string>,
                             cache: map<string, string>, hasKey: bool, lookup: string -> Lookup)
    requires n <= |lines|
    ensures NoNearRepeat(ExtractMusic(lines, n, consent, cache, hasKey, lookup).out)
  {
    HealthyInvariant(lines, n, consent, cache, hasKey, lookup);
  }

  /** A repeat comes back: a key absent from the last five emitted events is
      emitted again, however often it was emitted before. */
  lemma RepeatAfterFiveEmitted(lines: seq<LogLine>, n: nat, consent: set<string>,
                               cache: map<string, string>, hasKey: bool, lookup: string -> Lookup)
    requires n < |lines|
    requires lines[n].video.Some? && ParseMeta(lines[n].video.value.meta).Some?
    requires Allowed(consent, ParseMeta(lines[n].video.value.meta).value.1)
    requires var prev := ExtractMusic(lines, n, consent, cache, hasKey, lookup);
      var v := lines[n].video.value;
      var parsed := ParseMeta(v.meta).value;
      var title := Retitle(parsed.0, v.url, prev.cache, hasKey, lookup).0;
      |prev.out| >= WindowSize
      && forall i :: |prev.out| - WindowSize <= i < |prev.out| ==> KeyOf(prev.out[i]) != Key(title, parsed.1)
    ensures var prev := ExtractMusic(lines, n, consent, cache, hasKey, lookup);
      var v := lines[n].video.value;
      var parsed := ParseMeta(v.meta).value;
      var title := Retitle(parsed.0, v.url, prev.cache, hasKey, lookup).0;
      ExtractMusic(lines, n + 1, consent, cache, hasKey, lookup).out
        == prev.out + [MusicEvent(v.ts, title, parsed.1, v.url)]
  {
    var prev := ExtractMusic(lines, n, consent, cache, hasKey, lookup);
    var v := lines[n].video.value;
    var parsed := ParseMeta(v.meta).value;
    var title := Retitle(parsed.0, v.url, prev.cache, hasKey, lookup).0;
    NotInWindow(prev.out, Key(title, parsed.1));
    StepEmitsIffFresh(lines, n, consent, cache, hasKey, lookup);
  }

  /** A key that none of the last five events carries is outside the window
      of their keys. */
  lemma NotInWindow(out: seq<MusicEvent>, key: Key)
    requires |out| >= WindowSize
    requires forall i :: |out| - WindowSize <= i < |out| ==> KeyOf(out[i]) != key
    ensures key !in LastWindow(Keys(out))
  {
    var ks := Keys(out);
    var w := LastWindow(ks);
    forall k | 0 <= k < |w|
      ensures w[k] != key
    {
      assert w[k] == ks[|ks| - WindowSize + k];
    }
  }

  /** Every emitted event passed the consent filter and came from a video
      line at its own timestamp and URL, and the cache only grows. */
  lemma {:induction false} EmittedEventsAreAllowed(lines: seq<LogLine>, n: nat, consent: set<string>,
                                                   cache: map<string, string>, hasKey: bool,
                                                   lookup: string -> Lookup)
    requires n <= |lines|
    ensures var st := ExtractMusic(lines, n, consent, cache, hasKey, lookup);
      && (forall e :: e in st.out ==> Allowed(consent, e.user))
      && (forall e :: e in st.out ==>
            (exists i :: 0 <= i < n && lines[i].video.Some?
                         && lines[i].video.value.ts == e.ts && lines[i].video.value.url == e.url))
      && (forall k :: k in cache ==> k in st.cache && st.cache[k] == cache[k])
  {
    if n > 0 {
      EmittedEventsAreAllowed(lines, n - 1, consent, cache, hasKey, lookup);
      var prev := ExtractMusic(lines, n - 1, consent, cache, hasKey, lookup);
      var st := ExtractMusic(lines, n, consent, cache, hasKey, lookup);
      StepSound(prev, lines[n - 1], consent, hasKey, lookup);
      forall e | e in st.out
        ensures exists i :: 0 <= i < n && lines[i].video.Some?
                            && lines[i].video.value.ts == e.ts && lines[i].video.value.url == e.url
      {
        if e in prev.out {
          var i :| 0 <= i < n - 1 && lines[i].video.Some?
                   && lines[i].video.value.ts == e.ts && lines[i].video.value.url == e.url;
          assert 0 <= i < n;
        } else {
          assert 0 <= n - 1 < n;
        }
      }
    }
  }

  /** One step adds only an allowed event of the line's own video, and keeps
      every cache entry. */
  lemma StepSound(st: MusicState, line: LogLine, consent: set<string>, hasKey: bool,
                  lookup: string -> Lookup)
    ensures var r := MusicStep(st, line, consent, hasKey, lookup);
      && (forall e :: e in r.out ==>
            || e in st.out
            || (&& line.video.Some? && e.ts == line.video.value.ts && e.url == line.video.value.url
                && Allowed(consent, e.user)))
      && (forall k :: k in st.cache ==> k in r.cache && r.cache[k] == st.cache[k])
  {
  }

  /** A YouTube line's event carries the resolved title even without an API
      key: the video id then replaces the metadata title. */
  lemma YouTubeTitleReplaced(title: string, url: string, cache: map<string, string>,
                             lookup: string -> Lookup)
    requires IsYouTube(url) && VideoId(url).Some? && VideoId(url).value !in cache
    ensures Retitle(title, url, cache, false, lookup) == (VideoId(url).value, cache)
  {
  }

  /** For a YouTube URL with an id the metadata title never reaches the
      event: two lines that differ only in it get the same title and leave
      the same cache, whatever is cached and whether a key is set. */
  lemma MetaTitleIgnored(t1: string, t2: string, url: string, cache: map<string, string>,
                         hasKey: bool, lookup: string -> Lookup)
    requires IsYouTube(url) && VideoId(url).Some?
    ensures Retitle(t1, url, cache, hasKey, lookup) == Retitle(t2, url, cache, hasKey, lookup)
  {
  }
}

=== FILE: segmenter.dfy ===
/** The room-session segmenter `extract_valid_ranges`
    (log_analyzer.py:71-81): one pass over the lines with at most one open
    session, emitting `[start, end]` index ranges. */
module Segmenter {
  import opened Wrappers
  import opened LogLines

  /** A closed room session: the index of its enter line and of the line that
      closed it, both inclusive. */
  datatype Range = Range(start: nat, end: nat)

  /** The loop state after some prefix of the lines: the start index of the
      open session, if any, and the ranges emitted so far. */
  datatype ScanState = ScanState(open: Option<nat>, ranges: seq<Range>)

  /** One iteration of the loop body, for line `i`. An enter line always
      (re)opens a session at `i`; otherwise a leave line closes the open
      session. A leave line with no open session changes nothing. */
  function Step(st: ScanState, i: nat, line: LogLine): ScanState {
    if line.enter then ScanState(Some(i), st.ranges)
    else if st.open.Some? && line.leave then
      ScanState(None, st.ranges + [Range(st.open.value, i)])
    else st
  }

  /** The loop state after the first `n` lines. */
  function Scan(lines: seq<LogLine>, n: nat): ScanState
    requires n <= |lines|
  {
    if n == 0 then ScanState(None, [])
    else Step(Scan(lines, n - 1), n - 1, lines[n - 1])
  }

  /** No line strictly between `lo` and `hi` is an enter or a leave line. */
  ghost predicate Quiet(lines: seq<LogLine>, lo: nat, hi: nat) {
    forall k :: lo < k < hi && k < |lines| ==> !lines[k].enter && !lines[k].leave
  }

  /** Independent description of a session: an enter line at `start`, a line
      at `end` that is a leave line and not an enter line, and between them
      neither kind of line. */
  ghost predicate IsSession(lines: seq<LogLine>, r: Range) {
    && r.start < r.end < |lines|
    && lines[r.start].enter
    && lines[r.end].leave && !lines[r.end].enter
    && Quiet(lines, r.start, r.end)
  }

  /** After the first `n` lines, a session opened at `s` is still open. */
  ghost predicate OpenAt(lines: seq<LogLine>, n: nat, s: nat) {
    s < n <= |lines| && lines[s].enter && Quiet(lines, s, n)
  }

  /** Each range ends before the next one starts. */
  ghost predicate Ordered(rs: seq<Range>) {
    forall k :: 0 <= k < |rs| - 1 ==> rs[k].end < rs[k + 1].start
  }

  lemma OpenAtUnique(lines: seq<LogLine>, n: nat, s: nat, t: nat)
    requires OpenAt(lines, n, s) && OpenAt(lines, n, t)
    ensures s == t
  {
  }

  /** The loop invariant of `extract_valid_ranges`: after `n` lines the open
      session is the unique still-open enter line, and the emitted ranges are
      exactly the sessions that end before `n`, in increasing order. */
  lemma {:induction false} ScanInvariant(lines: seq<LogLine>, n: nat)
    requires n <= |lines|
    ensures var st := Scan(lines, n);
      && (st.open.Some? ==> OpenAt(lines, n, st.open.value))
      && (st.open.None? ==> forall s: nat :: !OpenAt(lines, n, s))
      && (forall r :: r in st.ranges <==> IsSession(lines, r) && r.end < n)
      && Ordered(st.ranges)
      && (forall r :: r in st.ranges ==> r.end < n)
      && (st.open.Some? ==> forall r :: r in st.ranges ==> r.end < st.open.value)
  {
    if n > 0 {
      var m := n - 1;
      ScanInvariant(lines, m);
      var prev := Scan(lines, m);
      var line := lines[m];
      var st := Scan(lines, n);
      if line.enter {
        forall s: nat | OpenAt(lines, n, s)
          ensures s == m
        {
        }
        assert OpenAt(lines, n, m);
        forall r | IsSession(lines, r) && r.end < n
          ensures r in st.ranges
        {
          assert r.end != m;
        }
      } else if prev.open.Some? && line.leave {
        var s := prev.open.value;
        assert IsSession(lines, Range(s, m));
        forall r | IsSession(lines, r) && r.end < n
          ensures r in st.ranges
        {
          if r.end == m {
            assert OpenAt(lines, m, r.start);
            OpenAtUnique(lines, m, r.start, s);
          }
        }
        forall t: nat | OpenAt(lines, n, t)
          ensures false
        {
        }
      } else {
        assert st == prev;
        forall r | IsSession(lines, r) && r.end < n
          ensures r in st.ranges
        {
          if r.end == m {
            assert OpenAt(lines, m, r.start);
          }
        }
        if prev.open.Some? {
          assert OpenAt(lines, n, prev.open.value);
        } else {
          forall t: nat | OpenAt(lines, n, t)
            ensures false
          {
            assert t != m;
            assert OpenAt(lines, m, t);
          }
        }
      }
    }
  }

  /** `extract_valid_ranges`: the sessions of the whole file, in order. A
      range is emitted exactly when its enter line is followed, with no
      other enter or leave line in between, by a leave line that is not
      itself an enter line. So a later enter line restarts the session, an
      enter line never closes one, a leave line with no open session is
      ignored, and a session still open at end of input emits nothing. */
  function ExtractValidRanges(lines: seq<LogLine>): (rs: seq<Range>)
    ensures forall r :: r in rs <==> IsSession(lines, r)
    ensures forall r :: r in rs ==> r.start < r.end < |lines|
    ensures Ordered(rs)
  {
    ScanInvariant(lines, |lines|);
    Scan(lines, |lines|).ranges
  }

  /** Ordered ranges are pairwise disjoint and strictly increasing, not only
      neighbour by neighbour. */
  lemma {:induction false} OrderedIsDisjoint(rs: seq<Range>, i: nat, j: nat)
    requires Ordered(rs)
    requires forall r :: r in rs ==> r.start < r.end
    requires i < j < |rs|
    ensures rs[i].end < rs[j].start
    decreases j - i
  {
    if j > i + 1 {
      OrderedIsDisjoint(rs, i, j - 1);
      assert rs[j - 1] in rs;
    }
  }

  /** An enter line inside an open session moves the session start: with
      enter lines at `a < b`, nothing else between `a` and a closing line
      `e`, only `[b, e]` is emitted. */
  lemma EnterRestartsSession(lines: seq<LogLine>, a: nat, b: nat, e: nat)
    requires a < b < e < |lines|
    requires lines[a].enter && lines[b].enter
    requires lines[e].leave && !lines[e].enter
    requires Quiet(lines, b, e)
    ensures Range(b, e) in ExtractValidRanges(lines)
    ensures Range(a, e) !in ExtractValidRanges(lines)
  {
    var rs := ExtractValidRanges(lines);
    assert IsSession(lines, Range(b, e));
    assert !IsSession(lines, Range(a, e));
  }

  /** A session whose enter line has no later leave line emits nothing. */
  lemma DanglingSessionDropped(lines: seq<LogLine>, s: nat)
    requires s < |lines|
    requires forall k :: s < k < |lines| ==> !lines[k].leave
    ensures forall r :: r in ExtractValidRanges(lines) ==> r.start != s
  {
  }
}

=== FILE: sorting.dfy ===
/** Python's `sorted(xs, key=...)` over an integer key: a stable sort. The
    model is an insertion sort on sequences; its specification is that the
    result is ordered by key, is a permutation of the input, and keeps the
    input order among elements with equal keys. */
module Sorting {

  /** Keys never decrease along `s`. */
  ghost predicate SortedBy<T>(s: seq<T>, key: T -> int) {
    forall i, j :: 0 <= i < j < |s| ==> key(s[i]) <= key(s[j])
  }

  /** The elements of `s` whose key is `k`, in their order in `s`. */
  function WithKey<T>(s: seq<T>, key: T -> int, k: int): seq<T> {
    if |s| == 0 then []
    else (if key(s[0]) == k then [s[0]] else []) + WithKey(s[1..], key, k)
  }

  /** Puts `x` before the first element whose key is at least `key(x)`. */
  function Insert<T>(x: T, s: seq<T>, key: T -> int): seq<T> {
    if |s| == 0 then [x]
    else if key(x) <= key(s[0]) then [x] + s
    else [s[0]] + Insert(x, s[1..], key)
  }

  lemma {:induction false} InsertPermutes<T>(x: T, s: seq<T>, key: T -> int)
    ensures multiset(Insert(x, s, key)) == multiset(s) + multiset{x}
    ensures |Insert(x, s, key)| == |s| + 1
  {
    if |s| > 0 {
      assert s == [s[0]] + s[1..];
      if key(x) > key(s[0]) {
        InsertPermutes(x, s[1..], key);
      }
    }
  }

  /** A tail of a sorted sequence is sorted. */
  lemma SortedTail<T>(s: seq<T>, key: T -> int)
    requires |s| > 0 && SortedBy(s, key)
    ensures SortedBy(s[1..], key)
    ensures forall y :: y in s[1..] ==> key(s[0]) <= key(y)
  {
    var t := s[1..];
    forall i, j | 0 <= i < j < |t|
      ensures key(t[i]) <= key(t[j])
    {
      assert t[i] == s[i + 1] && t[j] == s[j + 1];
    }
  }

  /** Inserting adds `x` and nothing else. */
  lemma {:induction false} InsertMember<T>(x: T, s: seq<T>, key: T -> int, y: T)
    ensures y in Insert(x, s, key) <==> y == x || y in s
  {
    if |s| > 0 && key(x) > key(s[0]) {
      InsertMember(x, s[1..], key, y);
      assert s == [s[0]] + s[1..];
    }
  }

  lemma {:induction false} InsertSorted<T>(x: T, s: seq<T>, key: T -> int)
    requires SortedBy(s, key)
    ensures SortedBy(Insert(x, s, key), key)
  {
    if |s| > 0 && key(x) > key(s[0]) {
      var t := s[1..];
      SortedTail(s, key);
      InsertSorted(x, t, key);
      var rt := Insert(x, t, key);
      var r := [s[0]] + rt;
      assert Insert(x, s, key) == r;
      forall i, j | 0 <= i < j < |r|
        ensures key(r[i]) <= key(r[j])
      {
        assert r[j] == rt[j - 1] && r[j] in rt;
        if i > 0 {
          assert r[i] == rt[i - 1];
        } else {
          InsertMember(x, t, key, r[j]);
        }
      }
    }
  }

  lemma WithKeyCons<T>(y: T, s: seq<T>, key: T -> int, k: int)
    ensures WithKey([y] + s, key, k) == (if key(y) == k then [y] else []) + WithKey(s, key, k)
  {
    assert ([y] + s)[0] == y && ([y] + s)[1..] == s;
  }

  /** `x` lands before every element of `s` with its own key, and the other
      keys' subsequences are untouched. */
  lemma {:induction false} InsertWithKey<T>(x: T, s: seq<T>, key: T -> int, k: int)
    ensures WithKey(Insert(x, s, key), key, k) ==
      (if key(x) == k then [x] else []) + WithKey(s, key, k)
  {
    if |s| == 0 {
      WithKeyCons(x, s, key, k);
      assert [x] + s == [x];
    } else if key(x) <= key(s[0]) {
      WithKeyCons(x, s, key, k);
    } else {
      var t := s[1..];
      InsertWithKey(x, t, key, k);
      WithKeyCons(s[0], Insert(x, t, key), key, k);
      WithKeyCons(s[0], t, key, k);
      assert s == [s[0]] + t;
      var hx: seq<T> := if key(x) == k then [x] else [];
      var h0: seq<T> := if key(s[0]) == k then [s[0]] else [];
      assert hx == [] || h0 == [];
      assert h0 + (hx + WithKey(t, key, k)) == hx + (h0 + WithKey(t, key, k));
    }
  }

  /** Inserting the head into the sorted tail sorts the whole sequence. */
  lemma SortStep<T>(s: seq<T>, rest: seq<T>, key: T -> int)
    requires |s| > 0 && SortedBy(rest, key)
    requires multiset(rest) == multiset(s[1..]) && |rest| == |s| - 1
    requires forall k :: WithKey(rest, key, k) == WithKey(s[1..], key, k)
    ensures var r := Insert(s[0], rest, key);
      && SortedBy(r, key) && multiset(r) == multiset(s) && |r| == |s|
      && forall k :: WithKey(r, key, k) == WithKey(s, key, k)
  {
    InsertSorted(s[0], rest, key);
    InsertPermutes(s[0], rest, key);
    assert s == [s[0]] + s[1..];
    forall k
      ensures WithKey(Insert(s[0], rest, key), key, k) == WithKey(s, key, k)
    {
      InsertWithKey(s[0], rest, key, k);
    }
  }

  /** `sorted(s, key=key)`. */
  function SortBy<T>(s: seq<T>, key: T -> int): (r: seq<T>)
    ensures SortedBy(r, key)
    ensures multiset(r) == multiset(s) && |r| == |s|
    ensures forall k :: WithKey(r, key, k) == WithKey(s, key, k)
  {
    if |s| == 0 then []
    else
      var rest := SortBy(s[1..], key);
      SortStep(s, rest, key);
      Insert(s[0], rest, key)
  }

  lemma SortByCons<T>(s: seq<T>, key: T -> int)
    requires |s| > 0
    ensures SortBy(s, key) == Insert(s[0], SortBy(s[1..], key), key)
  {
  }

  /** Sorting an already sorted sequence changes nothing. */
  lemma {:induction false} SortBySorted<T>(s: seq<T>, key: T -> int)
    requires SortedBy(s, key)
    ensures SortBy(s, key) == s
  {
    if |s| > 0 {
      var t := s[1..];
      SortedTail(s, key);
      SortBySorted(t, key);
      SortByCons(s, key);
      if |t| > 0 {
        assert key(s[0]) <= key(t[0]) by { assert t[0] == s[1]; }
      }
      assert Insert(s[0], t, key) == [s[0]] + t;
      assert s == [s[0]] + t;
    }
  }
}

=== FILE: text.dfy ===
/** The Python string operations the log analyser and the card service rely
    on, stated over `string` (a sequence of code points): substring search
    (`in`, `str.find`), `split(sep, 1)`, `rsplit("(", 1)`, `strip()`,
    `strip(")")`, `replace` of one character, and decimal rendering of integers
    as f-strings do it. */
module Text {
  import opened Wrappers

  /** `sub` occurs in `s` starting at index `i`. */
  predicate OccursAt(s: string, sub: string, i: nat) {
    i + |sub| <= |s| && s[i..i + |sub|] == sub
  }

  /** Index of the first occurrence of `sub` in `s` at or after `from`. */
  function FindFrom(s: string, sub: string, from: nat): (r: Option<nat>)
    decreases |s| - from
    ensures r.Some? ==> from <= r.value && OccursAt(s, sub, r.value)
    ensures r.Some? ==> forall j: nat :: from <= j < r.value ==> !OccursAt(s, sub, j)
    ensures r.None? ==> forall j: nat :: from <= j ==> !OccursAt(s, sub, j)
  {
    if from + |sub| > |s| then None
    else if s[from..from + |sub|] == sub then Some(from)
    else FindFrom(s, sub, from + 1)
  }

  /** Python's `sub in s`. */
  predicate Contains(s: string, sub: string) {
    FindFrom(s, sub, 0).Some?
  }

  /** `Contains` holds exactly when `sub` occurs somewhere in `s`. */
  lemma ContainsIff(s: string, sub: string, i: nat)
    ensures OccursAt(s, sub, i) ==> Contains(s, sub)
    ensures Contains(s, sub) ==> OccursAt(s, sub, FindFrom(s, sub, 0).value)
  {
  }

  /** Python's `s.split(sep, 1)[1]`: the text after the first `sep`. */
  function AfterFirst(s: string, sep: string): (r: string)
    requires Contains(s, sep)
    ensures |r| + |sep| <= |s| && r == s[|s| - |r|..]
    ensures OccursAt(s, sep, |s| - |r| - |sep|)
    ensures forall j: nat :: j < |s| - |r| - |sep| ==> !OccursAt(s, sep, j)
  {
    var k := FindFrom(s, sep, 0).value;
    s[k + |sep|..]
  }

  /** When the first occurrence of `sep` is at `k`, the text after it
      starts at `k + |sep|`. */
  lemma AfterFirstAt(s: string, sep: string, k: nat)
    requires OccursAt(s, sep, k)
    requires forall j: nat :: j < k ==> !OccursAt(s, sep, j)
    ensures Contains(s, sep)
    ensures AfterFirst(s, sep) == s[k + |sep|..]
  {
    ContainsIff(s, sep, k);
    var r := AfterFirst(s, sep);
    var i := |s| - |r| - |sep|;
    assert !(i < k) && !(k < i);
  }

  /** A string lacking a character of `sub` does not contain `sub`. */
  lemma MissingCharNotContained(s: string, sub: string, i: nat)
    requires i < |sub| && sub[i] !in s
    ensures !Contains(s, sub)
  {
  }

  /** Index of the last occurrence of the character `c` in `s`. */
  function RFind(s: string, c: char): (r: Option<nat>)
    ensures r.Some? ==> r.value < |s| && s[r.value] == c
    ensures r.Some? ==> forall j :: r.value < j < |s| ==> s[j] != c
    ensures r.None? <==> c !in s
  {
    if |s| == 0 then None
    else if s[|s| - 1] == c then Some(|s| - 1)
    else RFind(s[..|s| - 1], c)
  }

  /** Python's two-way unpacking of `s.rsplit(c, 1)`: `None` is the
      `ValueError` raised when `c` does not occur (a single piece). */
  function RSplitChar(s: string, c: char): (r: Option<(string, string)>)
    ensures r.None? <==> c !in s
    ensures r.Some? ==> r.value.0 + [c] + r.value.1 == s && c !in r.value.1
  {
    match RFind(s, c)
    case None => None
    case Some(k) =>
      assert s == s[..k] + [c] + s[k + 1..];
      Some((s[..k], s[k + 1..]))
  }

  /** Splitting at the last `c` undoes gluing two pieces with `c` when the
      right piece holds no `c`. */
  lemma RSplitCharJoin(a: string, c: char, b: string)
    requires c !in b
    ensures RSplitChar(a + [c] + b, c) == Some((a, b))
  {
    var s := a + [c] + b;
    assert s[|a|] == c;
    forall j | |a| < j < |s|
      ensures s[j] != c
    {
      assert s[j] == b[j - |a| - 1];
    }
    var k := RFind(s, c).value;
    assert k == |a|;
    assert s[..k] == a;
    assert s[k + 1..] == b;
  }

  /** Python's `str.isspace()`: the characters `strip()` removes. */
  predicate IsSpace(c: char) {
    var n := c as int;
    (9 <= n <= 13) || (28 <= n <= 32) || n == 0x85 || n == 0xA0 || n == 0x1680
    || (0x2000 <= n <= 0x200A) || n == 0x2028 || n == 0x2029 || n == 0x202F
    || n == 0x205F || n == 0x3000
  }

  /** Number of leading characters of `s` that satisfy `drop`. */
  function LeadCount(s: string, drop: char -> bool): (n: nat)
    ensures n <= |s|
    ensures forall k :: 0 <= k < n ==> drop(s[k])
    ensures n < |s| ==> !drop(s[n])
  {
    if |s| > 0 && drop(s[0]) then 1 + LeadCount(s[1..], drop) else 0
  }

  /** Python's `s.strip(chars)`: `s` without its leading and trailing run of
      characters satisfying `drop`. Its shape is stated by `StripByShape`. */
  function StripBy(s: string, drop: char -> bool): string
    decreases |s|
  {
    if |s| > 0 && drop(s[0]) then StripBy(s[1..], drop)
    else if |s| > 0 && drop(s[|s| - 1]) then StripBy(s[..|s| - 1], drop)
    else s
  }

  /** The result of `StripBy` neither starts nor ends with a dropped
      character. */
  lemma {:induction false} StripByEnds(s: string, drop: char -> bool)
    ensures var r := StripBy(s, drop);
      r == [] || (!drop(r[0]) && !drop(r[|r| - 1]))
    decreases |s|
  {
    if |s| > 0 && drop(s[0]) {
      StripByEnds(s[1..], drop);
    } else if |s| > 0 && drop(s[|s| - 1]) {
      StripByEnds(s[..|s| - 1], drop);
    }
  }

  /** The result of `StripBy` is the infix of `s` that starts after the
      leading run of dropped characters, and every character of `s` outside
      it is dropped. */
  lemma {:induction false} StripByInfix(s: string, drop: char -> bool)
    ensures var r := StripBy(s, drop);
      && LeadCount(s, drop) + |r| <= |s|
      && r == s[LeadCount(s, drop)..LeadCount(s, drop) + |r|]
      && (forall k :: 0 <= k < LeadCount(s, drop) ==> drop(s[k]))
      && (forall k :: LeadCount(s, drop) + |r| <= k < |s| ==> drop(s[k]))
    decreases |s|
  {
    var r := StripBy(s, drop);
    if |s| > 0 && drop(s[0]) {
      var t := s[1..];
      StripByInfix(t, drop);
      assert LeadCount(s, drop) == 1 + LeadCount(t, drop);
      forall k | LeadCount(s, drop) + |r| <= k < |s|
        ensures drop(s[k])
      {
        assert s[k] == t[k - 1];
      }
    } else if |s| > 0 && drop(s[|s| - 1]) {
      var t := s[..|s| - 1];
      StripByInfix(t, drop);
      assert LeadCount(s, drop) == 0;
      assert |t| > 0 && t[0] == s[0];
      assert LeadCount(t, drop) == 0;
      forall k | |r| <= k < |s|
        ensures drop(s[k])
      {
        if k < |t| {
          assert s[k] == t[k];
        }
      }
    }
  }

  /** Stripping a string that neither starts nor ends with a dropped
      character leaves it unchanged; in particular stripping is idempotent. */
  lemma StripByIdentity(s: string, drop: char -> bool)
    requires s == [] || (!drop(s[0]) && !drop(s[|s| - 1]))
    ensures StripBy(s, drop) == s
  {
  }

  /** Stripping `t` followed by one dropped character gives `t` back when
      `t` neither starts nor ends with a dropped character. */
  lemma StripByTrailing(t: string, c: char, drop: char -> bool)
    requires drop(c)
    requires t == [] || (!drop(t[0]) && !drop(t[|t| - 1]))
    ensures StripBy(t + [c], drop) == t
  {
    var s := t + [c];
    if |t| == 0 {
      assert StripBy(s, drop) == StripBy(s[1..], drop);
      assert s[1..] == [];
    } else {
      assert s[0] == t[0] && s[..|s| - 1] == t;
      assert StripBy(s, drop) == StripBy(t, drop);
      StripByIdentity(t, drop);
    }
  }

  /** Python's `s.strip()`. */
  function Strip(s: string): string {
    StripBy(s, IsSpace)
  }

  /** Python's `s.strip(")")`. */
  function StripParens(s: string): string {
    StripBy(s, c => c == ')')
  }

  /** Python's `s.replace(c, rep)` for a one-character pattern. */
  function ReplaceChar(s: string, c: char, rep: string): (r: string)
    ensures c !in s ==> r == s
    ensures c !in rep ==> c !in r
    ensures forall d :: d in r ==> d in s || d in rep
  {
    if |s| == 0 then ""
    else (if s[0] == c then rep else [s[0]]) + ReplaceChar(s[1..], c, rep)
  }

  /** Replacing distributes over concatenation. */
  lemma {:induction false} ReplaceCharAppend(a: string, b: string, c: char, rep: string)
    ensures ReplaceChar(a + b, c, rep) == ReplaceChar(a, c, rep) + ReplaceChar(b, c, rep)
  {
    if |a| > 0 {
      assert (a + b)[0] == a[0] && (a + b)[1..] == a[1..] + b;
      ReplaceCharAppend(a[1..], b, c, rep);
    } else {
      assert a + b == b;
    }
  }

  predicate IsDigit(c: char) {
    '0' <= c <= '9'
  }

  function DigitChar(d: nat): (c: char)
    requires d < 10
    ensures IsDigit(c) && DigitValue(c) == d
  {
    ('0' as int + d) as char
  }

  function DigitValue(c: char): (d: nat)
    requires IsDigit(c)
    ensures d < 10
  {
    c as int - '0' as int
  }

  /** Every character of `s` is a decimal digit. */
  predicate AllDigits(s: string) {
    forall k :: 0 <= k < |s| ==> IsDigit(s[k])
  }

  /** Reads a string of decimal digits back as a number. */
  function ParseDecimal(s: string): nat
    requires AllDigits(s)
  {
    if |s| == 0 then 0
    else ParseDecimal(s[..|s| - 1]) * 10 + DigitValue(s[|s| - 1])
  }

  /** The decimal rendering of a natural number, as `f"{n}"` prints it:
      digits only, no leading zero, and reading it back gives `n`. */
  function Decimal(n: nat): (r: string)
    ensures |r| >= 1 && AllDigits(r)
    ensures ParseDecimal(r) == n
    ensures |r| > 1 ==> r[0] != '0'
    ensures n < 10 <==> |r| == 1
  {
    if n < 10 then [DigitChar(n)]
    else
      var prefix := Decimal(n / 10);
      var r := prefix + [DigitChar(n % 10)];
      assert r[..|r| - 1] == prefix;
      r
  }

  /** `f"{n}"` for any integer: a minus sign before the digits of `-n`. */
  function IntDecimal(n: int): string {
    if n >= 0 then Decimal(n) else "-" + Decimal(-n)
  }

  /** `f"{n:02d}"`: at least two characters, zero-padded after the sign. */
  function Pad2(n: int): (r: string)
    ensures |r| >= 2
    ensures 0 <= n ==> AllDigits(r)
    ensures 0 <= n ==> ParseDecimal(r) == n
    ensures 0 <= n < 100 ==> |r| == 2
  {
    if 0 <= n < 10 then
      var r := "0" + Decimal(n);
      assert ParseDecimal(r[..1]) == 0;
      assert r[..|r| - 1] == r[..1];
      r
    else if n >= 0 then Decimal(n)
    else "-" + Decimal(-n)
  }
}

=== FILE: title_cache.dfy ===
/** Title resolution `get_youtube_title` (log_analyzer.py:31-69) as a pure
    function. The JSON cache file becomes a map threaded through the calls,
    and the YouTube Data API request becomes a lookup function that either
    fails (any exception, log_analyzer.py:57-59) or yields the titles of the
    response's `items`. */
module TitleCache {

  /** The outcome of one API request for a video id. */
  datatype Lookup = LookupFailed | Items(titles: seq<string>)

  /** The returned title, the cache afterwards, and whether a request was
      made. */
  datatype Resolution = Resolution(title: string, cache: map<string, string>, lookedUp: bool)

  /** `get_youtube_title(id)` with the cache `cache`. In order: a cached id
      returns its title; without an API key the id itself is the title; a
      failed request returns the id and caches nothing; a successful one
      caches and returns the first item's title, or the id when there are no
      items. */
  function Resolve(cache: map<string, string>, hasKey: bool, lookup: string -> Lookup,
                   id: string): (r: Resolution)
    ensures r.lookedUp <==> id !in cache && hasKey
    ensures !r.lookedUp || lookup(id).LookupFailed? ==> r.cache == cache
    ensures forall k :: k in cache ==> k in r.cache && r.cache[k] == cache[k]
    ensures r.cache.Keys <= cache.Keys + {id}
    ensures id in r.cache ==> r.title == r.cache[id]
    ensures id !in r.cache ==> r.title == id
    ensures id in cache ==> r.title == cache[id]
    ensures id !in cache && hasKey && lookup(id).Items? ==>
      && r.title == (if |lookup(id).titles| > 0 then lookup(id).titles[0] else id)
      && r.cache == cache[id := r.title]
  {
    if id in cache then Resolution(cache[id], cache, false)
    else if !hasKey then Resolution(id, cache, false)
    else match lookup(id)
      case LookupFailed => Resolution(id, cache, true)
      case Items(titles) =>
        var title := if |titles| > 0 then titles[0] else id;
        Resolution(title, cache[id := title], true)
  }

  /** Resolving an id twice, where the second call's request may answer
      differently (`l2`), as a retried network request can. The second call
      requests again exactly when the first one requested and failed; when it
      does not request, it returns the first call's title and cache. When the
      retry answers as the first request did, both calls agree. */
  lemma ResolveTwice(cache: map<string, string>, hasKey: bool, l1: string -> Lookup,
                     l2: string -> Lookup, id: string)
    ensures var r1 := Resolve(cache, hasKey, l1, id);
      var r2 := Resolve(r1.cache, hasKey, l2, id);
      && (r2.lookedUp <==> r1.lookedUp && l1(id).LookupFailed?)
      && (!r2.lookedUp ==> r2.title == r1.title && r2.cache == r1.cache)
      && (l2(id) == l1(id) ==> r2.title == r1.title && r2.cache == r1.cache)
  {
  }

  /** A failed request is retried on the next call, and a retry that
      succeeds returns and caches the real title. */
  lemma RetryCanSucceed(cache: map<string, string>, l1: string -> Lookup, l2: string -> Lookup,
                        id: string)
    requires id !in cache && l1(id).LookupFailed?
    requires l2(id).Items? && |l2(id).titles| > 0
    ensures var r1 := Resolve(cache, true, l1, id);
      var r2 := Resolve(r1.cache, true, l2, id);
      && r1.title == id && r1.cache == cache
      && r2.title == l2(id).titles[0] && r2.cache == cache[id := l2(id).titles[0]]
  {
  }

  /** A failed request is not remembered: the next call for the same id
      requests it again. */
  lemma FailedLookupRepeats(cache: map<string, string>, lookup: string -> Lookup, id: string)
    requires id !in cache && lookup(id).LookupFailed?
    ensures var r1 := Resolve(cache, true, lookup, id);
      r1.lookedUp && Resolve(r1.cache, true, lookup, id).lookedUp
  {
  }

  /** A successful request whose response has no items caches the id as its
      own title, so the id is never requested again. */
  lemma EmptyItemsCachedAsId(cache: map<string, string>, lookup: string -> Lookup, id: string)
    requires id !in cache && lookup(id) == Items([])
    ensures var r := Resolve(cache, true, lookup, id);
      r.title == id && r.cache == cache[id := id]
  {
  }

  /** Without an API key the cache is read but never written: cached ids keep
      their titles and every other id stands for itself. */
  lemma NoKeyNeverWrites(cache: map<string, string>, lookup: string -> Lookup, id: string)
    ensures var r := Resolve(cache, false, lookup, id);
      r.cache == cache && r.title == (if id in cache then cache[id] else id)
  {
  }
}

=== FILE: user_cards.dfy ===
/** The pure helpers of the user-card service (og.py): file names derived
    from nicknames, the two duration formatters, the cache and profile image
    paths, and the outcome tally of `build_all_user_cards`. Database queries,
    image rendering and the file system become inputs. */
module UserCards {
  import opened Wrappers
  import opened Text

  /** U+2044 FRACTION SLASH, the look-alike of `/` that is also replaced. */
  const FractionSlash: char := '\U{2044}'

  /** `safe_filename`: every `/`, then every fraction slash, becomes
      `_SLASH_`. */
  function SafeFilename(nickname: string): (r: string)
    ensures '/' !in r && FractionSlash !in r
    ensures '/' !in nickname && FractionSlash !in nickname ==> r == nickname
    ensures forall c :: c in r ==> c in nickname || c in "_SLASH_"
  {
    ReplaceChar(ReplaceChar(nickname, '/', "_SLASH_"), FractionSlash, "_SLASH_")
  }

  /** The replacement is not injective: a nickname with a `/` shares its file
      with the nickname that spells the replacement out. */
  lemma SafeFilenameCollides(p: string, q: string)
    ensures SafeFilename(p + "/" + q) == SafeFilename(p + "_SLASH_" + q)
  {
    SlashSpelledOut(p, q);
  }

  /** Replacing `/` turns both spellings into the same text. */
  lemma SlashSpelledOut(p: string, q: string)
    ensures ReplaceChar(p + "/" + q, '/', "_SLASH_") == ReplaceChar(p + "_SLASH_" + q, '/', "_SLASH_")
  {
    var slash := "_SLASH_";
    var rp := ReplaceChar(p, '/', slash);
    var rq := ReplaceChar(q, '/', slash);
    ReplaceCharAppend(p + "/", q, '/', slash);
    ReplaceCharAppend(p, "/", '/', slash);
    assert ReplaceChar("/", '/', slash) == slash + ReplaceChar("", '/', slash);
    assert ReplaceChar(p + "/" + q, '/', slash) == rp + slash + rq;
    ReplaceCharAppend(p + slash, q, '/', slash);
    ReplaceCharAppend(p, slash, '/', slash);
    assert ReplaceChar(p + slash + q, '/', slash) == rp + slash + rq;
  }

  /** `int(total_sec or 0)`: `None` and 0 both read as 0. */
  function SecondsOrZero(total: Option<int>): int {
    match total
    case None => 0
    case Some(n) => n
  }

  /** `sec_to_hms_str`: hours and minutes of a number of seconds, each
      zero-padded to two digits and joined by `:`. Python's `//` and `%`
      floor; with the positive divisors used here Dafny's Euclidean `/` and
      `%` agree with them. */
  function SecToHms(total: Option<int>): (r: string)
    ensures SecondsOrZero(total) == 0 ==> r == "00:00"
    ensures |r| >= 5 && r[|r| - 3] == ':'
  {
    var n := SecondsOrZero(total);
    var h := n / 3600;
    var m := (n % 3600) / 60;
    Pad2(h) + ":" + Pad2(m)
  }

  /** Whole hours, then whole minutes of the rest, leave less than a
      minute over. */
  lemma HoursMinutes(n: nat)
    ensures var h, m := n / 3600, (n % 3600) / 60;
      m < 60 && h * 3600 + m * 60 <= n < h * 3600 + m * 60 + 60
  {
  }

  /** Reads an `H:MM` text back into hours and minutes: at least two
      digits, a colon, then exactly two digits. */
  function ReadHms(r: string): Option<(nat, nat)> {
    if |r| >= 5 && r[|r| - 3] == ':' && AllDigits(r[..|r| - 3]) && AllDigits(r[|r| - 2..])
    then Some((ParseDecimal(r[..|r| - 3]), ParseDecimal(r[|r| - 2..])))
    else None
  }

  /** Hours and minutes joined by a colon read back to their values. */
  lemma ReadJoined(hs: string, ms: string)
    requires |hs| >= 2 && |ms| == 2 && AllDigits(hs) && AllDigits(ms)
    ensures ReadHms(hs + ":" + ms) == Some((ParseDecimal(hs), ParseDecimal(ms)))
  {
    var r := hs + ":" + ms;
    assert r[..|r| - 3] == hs;
    assert r[|r| - 2..] == ms;
  }

  /** For a non-negative count, the text reads back to the whole hours and
      the minutes below 60 that `n` contains; only the leftover seconds are
      lost. */
  lemma SecToHmsReadsBack(n: nat)
    ensures var p := ReadHms(SecToHms(Some(n)));
      && p.Some? && p.value.1 < 60
      && p.value.0 * 3600 + p.value.1 * 60 <= n < p.value.0 * 3600 + p.value.1 * 60 + 60
  {
    var h, m := n / 3600, (n % 3600) / 60;
    HoursMinutes(n);
    assert SecToHms(Some(n)) == Pad2(h) + ":" + Pad2(m);
    ReadJoined(Pad2(h), Pad2(m));
  }

  /** The nested `fmt_duration` of the card renderer: `"0m"` for a missing
      or non-positive value, otherwise `"{h}h {m}m"`, the hour part left out
      when it is zero. */
  function FmtDuration(seconds: Option<int>): (r: string)
    ensures seconds.None? || seconds.value <= 0 ==> r == "0m"
    ensures |r| >= 2 && r[|r| - 1] == 'm'
  {
    match seconds
    case None => "0m"
    case Some(s) =>
      if s <= 0 then "0m"
      else
        var h := s / 3600;
        var m := (s % 3600) / 60;
        (if h > 0 then Decimal(h) + "h " else "") + Decimal(m) + "m"
  }

  /** Below an hour the text is the whole minutes alone; from an hour on it
      is the hours, then the minutes below 60. Either way it reads back to
      `s` up to the leftover seconds. */
  lemma FmtDurationReadsBack(s: int)
    requires s > 0
    ensures s < 3600 ==> FmtDuration(Some(s)) == Decimal(s / 60) + "m"
    ensures s >= 3600 ==> exists h: nat, m: nat ::
      && FmtDuration(Some(s)) == Decimal(h) + "h " + Decimal(m) + "m"
      && h > 0 && m < 60 && h * 3600 + m * 60 <= s < h * 3600 + m * 60 + 60
  {
    HoursMinutes(s);
    if s >= 3600 {
      var h := s / 3600;
      var m := (s % 3600) / 60;
      assert FmtDuration(Some(s)) == Decimal(h) + "h " + Decimal(m) + "m";
    }
  }

  /** `os.path.join(a, b)` for two POSIX path pieces: an absolute `b`
      replaces `a`; otherwise a `/` is added unless `a` is empty or already
      ends with one. */
  function PathJoin(a: string, b: string): string {
    if |b| > 0 && b[0] == '/' then b
    else if |a| == 0 || a[|a| - 1] == '/' then a + b
    else a + "/" + b
  }

  /** The joined path ends with `b`. An absolute `b` is the whole result.
      Otherwise the result starts with `a`, and when `a` is not empty a `/`
      stands right before `b`. */
  lemma PathJoinShape(a: string, b: string)
    ensures var r := PathJoin(a, b);
      && |b| <= |r| && r[|r| - |b|..] == b
      && (|b| > 0 && b[0] == '/' ==> r == b)
      && ((|b| == 0 || b[0] != '/') ==> a <= r && |a| + |b| <= |r|)
      && ((|b| == 0 || b[0] != '/') && |a| > 0 ==> r[|r| - |b| - 1] == '/')
  {
  }

  /** `_cached_path`: the card file of a nickname. */
  function CachedPath(cacheDir: string, nickname: string): string {
    PathJoin(cacheDir, SafeFilename(nickname) + ".png")
  }

  /** The card file sits directly inside the cache directory, whatever the
      nickname contains, and its name is the sanitised nickname with `.png`
      appended. */
  lemma CachedPathInsideDir(cacheDir: string, nickname: string)
    ensures var r := CachedPath(cacheDir, nickname);
      var name := SafeFilename(nickname) + ".png";
      && '/' !in name
      && |name| <= |r| && r[|r| - |name|..] == name
      && (r[..|r| - |name|] == cacheDir || r[..|r| - |name|] == cacheDir + "/")
  {
    var name := SafeFilename(nickname) + ".png";
    assert name[0] in SafeFilename(nickname) || name[0] == '.';
  }

  /** `resolve_profile_image`: the nickname's own image when the file
      exists, else the default image, both inside the profile directory. */
  function ResolveProfileImage(dir: string, defaultName: string, nickname: string,
                               fileExists: string -> bool): (r: string)
    ensures fileExists(CachedPath(dir, nickname)) ==> r == CachedPath(dir, nickname)
    ensures !fileExists(CachedPath(dir, nickname)) ==> r == PathJoin(dir, defaultName)
  {
    var own := PathJoin(dir, SafeFilename(nickname) + ".png");
    if fileExists(own) then own else PathJoin(dir, defaultName)
  }

  // ---------------------------------------------------------------------
  // build_all_user_cards (og.py:461-495)
  // ---------------------------------------------------------------------

  /** What `fetch_user_stats` does for one nickname. */
  datatype Fetch = Found | NotFound | FetchRaised(message: string)

  /** What rendering and saving the card does. */
  datatype Save = Saved | SaveRaised(message: string)

  /** One `users` row and what happens to it. */
  datatype CardRow = CardRow(nickname: string, fetch: Fetch, save: Save)

  /** Which counter a row moves. */
  datatype RowOutcome = Skipped | Built | Failed(message: string)

  /** The returned dict. */
  datatype Tally = Tally(total: nat, built: nat, skipped: nat, errors: seq<(string, string)>)

  /** One iteration of the loop, given the files present: skip an existing
      card unless overwriting, report a missing user as `stats_not_found`,
      report any exception with its message, otherwise build (and create
      the card file). */
  function RowStep(cacheDir: string, overwrite: bool, files: set<string>, row: CardRow): (r: (RowOutcome, set<string>))
    ensures r.0 == Skipped <==> !overwrite && CachedPath(cacheDir, row.nickname) in files
    ensures r.1 == if r.0 == Built then files + {CachedPath(cacheDir, row.nickname)} else files
  {
    var path := CachedPath(cacheDir, row.nickname);
    if !overwrite && path in files then (Skipped, files)
    else match row.fetch
      case NotFound => (Failed("stats_not_found"), files)
      case FetchRaised(msg) => (Failed(msg), files)
      case Found =>
        match row.save
        case SaveRaised(msg) => (Failed(msg), files)
        case Saved => (Built, files + {path})
  }

  /** The outcomes of the first `n` rows and the files afterwards. */
  function Outcomes(cacheDir: string, overwrite: bool, files: set<string>, rows: seq<CardRow>, n: nat):
    (r: (seq<RowOutcome>, set<string>))
    requires n <= |rows|
    ensures |r.0| == n && files <= r.1
  {
    if n == 0 then ([], files)
    else
      var prev := Outcomes(cacheDir, overwrite, files, rows, n - 1);
      var step := RowStep(cacheDir, overwrite, prev.1, rows[n - 1]);
      (prev.0 + [step.0], step.1)
  }

  function CountOf(outs: seq<RowOutcome>, o: RowOutcome): nat {
    if |outs| == 0 then 0
    else CountOf(outs[..|outs| - 1], o) + (if outs[|outs| - 1] == o then 1 else 0)
  }

  /** The `(nickname, message)` pairs of the failed rows, in order. */
  function ErrorsOf(rows: seq<CardRow>, outs: seq<RowOutcome>): seq<(string, string)>
    requires |outs| == |rows|
  {
    if |outs| == 0 then []
    else
      var n := |outs| - 1;
      ErrorsOf(rows[..n], outs[..n]) + (if outs[n].Failed? then [(rows[n].nickname, outs[n].message)] else [])
  }

  /** Every outcome is one of the three kinds. */
  lemma {:induction false} CountsAddUp(rows: seq<CardRow>, outs: seq<RowOutcome>)
    requires |outs| == |rows|
    ensures CountOf(outs, Built) + CountOf(outs, Skipped) + |ErrorsOf(rows, outs)| == |outs|
  {
    if |outs| > 0 {
      var n := |outs| - 1;
      CountsAddUp(rows[..n], outs[..n]);
    }
  }

  lemma OutcomesNext(cacheDir: string, overwrite: bool, files: set<string>, rows: seq<CardRow>, i: nat)
    requires i < |rows|
    ensures var prev := Outcomes(cacheDir, overwrite, files, rows, i);
      var step := RowStep(cacheDir, overwrite, prev.1, rows[i]);
      Outcomes(cacheDir, overwrite, files, rows, i + 1) == (prev.0 + [step.0], step.1)
  {
  }

  /** One more outcome moves exactly its own counter. */
  lemma TallyStep(rows: seq<CardRow>, outs: seq<RowOutcome>, i: nat, o: RowOutcome)
    requires |outs| == i < |rows|
    ensures CountOf(outs + [o], Built) == CountOf(outs, Built) + (if o == Built then 1 else 0)
    ensures CountOf(outs + [o], Skipped) == CountOf(outs, Skipped) + (if o == Skipped then 1 else 0)
    ensures ErrorsOf(rows[..i + 1], outs + [o]) ==
      ErrorsOf(rows[..i], outs) + (if o.Failed? then [(rows[i].nickname, o.message)] else [])
  {
    assert (outs + [o])[..i] == outs;
    assert rows[..i + 1][..i] == rows[..i];
  }

  /** `build_all_user_cards(overwrite)` over the rows of `SELECT nickname
      FROM users`, with `files` the card files present beforehand. Each row
      moves exactly one counter, so the counts add up to the total. */
  method BuildAllUserCards(cacheDir: string, rows: seq<CardRow>, overwrite: bool, files: set<string>)
    returns (t: Tally, after: set<string>)
    ensures t.total == |rows|
    ensures t.built + t.skipped + |t.errors| == t.total
    ensures var (outs, fs) := Outcomes(cacheDir, overwrite, files, rows, |rows|);
      && t.built == CountOf(outs, Built) && t.skipped == CountOf(outs, Skipped)
      && t.errors == ErrorsOf(rows, outs) && after == fs
  {
    t := Tally(|rows|, 0, 0, []);
    after := files;
    var i := 0;
    ghost var outs: seq<RowOutcome> := [];
    while i < |rows|
      invariant 0 <= i <= |rows|
      invariant outs == Outcomes(cacheDir, overwrite, files, rows, i).0
      invariant after == Outcomes(cacheDir, overwrite, files, rows, i).1
      invariant t.total == |rows|
      invariant t.built == CountOf(outs, Built) && t.skipped == CountOf(outs, Skipped)
      invariant t.errors == ErrorsOf(rows[..i], outs)
    {
      var step := RowStep(cacheDir, overwrite, after, rows[i]);
      var o := step.0;
      OutcomesNext(cacheDir, overwrite, files, rows, i);
      TallyStep(rows, outs, i, o);
      match o {
        case Skipped => t := t.(skipped := t.skipped + 1);
        case Built => t := t.(built := t.built + 1);
        case Failed(msg) => t := t.(errors := t.errors + [(rows[i].nickname, msg)]);
      }
      outs := outs + [o];
      after := step.1;
      i := i + 1;
    }
    assert rows[..i] == rows;
    CountsAddUp(rows, outs);
  }

  /** A longer run extends a shorter one: the earlier outcomes stay as they
      were. */
  lemma {:induction false} OutcomesPrefix(cacheDir: string, overwrite: bool, files: set<string>,
                                          rows: seq<CardRow>, k: nat, n: nat)
    requires k <= n <= |rows|
    ensures Outcomes(cacheDir, overwrite, files, rows, n).0[..k] == Outcomes(cacheDir, overwrite, files, rows, k).0
  {
    var outs := Outcomes(cacheDir, overwrite, files, rows, n).0;
    if k < n {
      OutcomesPrefix(cacheDir, overwrite, files, rows, k, n - 1);
      var pre := Outcomes(cacheDir, overwrite, files, rows, n - 1).0;
      assert outs == pre + [outs[n - 1]];
      assert outs[..k] == pre[..k];
    } else {
      assert outs[..k] == outs;
    }
  }

  /** Files are only ever added. */
  lemma {:induction false} FilesGrow(cacheDir: string, overwrite: bool, files: set<string>,
                                     rows: seq<CardRow>, k: nat, n: nat)
    requires k <= n <= |rows|
    ensures Outcomes(cacheDir, overwrite, files, rows, k).1 <= Outcomes(cacheDir, overwrite, files, rows, n).1
  {
    if k < n {
      FilesGrow(cacheDir, overwrite, files, rows, k, n - 1);
    }
  }

  /** Row `i` is skipped exactly when, not overwriting, its card file is
      among the files the rows before it left. */
  lemma OutcomeAt(cacheDir: string, overwrite: bool, files: set<string>, rows: seq<CardRow>, i: nat)
    requires i < |rows|
    ensures Outcomes(cacheDir, overwrite, files, rows, i + 1).0[i] == Skipped <==>
      !overwrite && CachedPath(cacheDir, rows[i].nickname) in Outcomes(cacheDir, overwrite, files, rows, i).1
  {
    OutcomesNext(cacheDir, overwrite, files, rows, i);
  }

  /** Without overwriting, row `i` is skipped exactly when its card file is
      present once the rows before it have run. */
  lemma SkippedIffPresent(cacheDir: string, files: set<string>, rows: seq<CardRow>, n: nat, i: nat)
    requires i < n <= |rows|
    ensures Outcomes(cacheDir, false, files, rows, n).0[i] == Skipped <==>
      CachedPath(cacheDir, rows[i].nickname) in Outcomes(cacheDir, false, files, rows, i).1
  {
    OutcomesPrefix(cacheDir, false, files, rows, i + 1, n);
    var outs := Outcomes(cacheDir, false, files, rows, n).0;
    assert outs[i] == Outcomes(cacheDir, false, files, rows, i + 1).0[i] by {
      assert outs[i] == outs[..i + 1][i];
    }
    OutcomeAt(cacheDir, false, files, rows, i);
  }

  /** Without overwriting, a card file present beforehand always means the
      row is skipped. */
  lemma ExistingCardSkipped(cacheDir: string, files: set<string>, rows: seq<CardRow>, n: nat, i: nat)
    requires i < n <= |rows|
    requires CachedPath(cacheDir, rows[i].nickname) in files
    ensures Outcomes(cacheDir, false, files, rows, n).0[i] == Skipped
  {
    SkippedIffPresent(cacheDir, files, rows, n, i);
  }

  /** With overwriting nothing is ever skipped. */
  lemma {:induction false} OverwriteNeverSkips(cacheDir: string, files: set<string>, rows: seq<CardRow>, n: nat)
    requires n <= |rows|
    ensures CountOf(Outcomes(cacheDir, true, files, rows, n).0, Skipped) == 0
  {
    if n > 0 {
      OverwriteNeverSkips(cacheDir, files, rows, n - 1);
      var outs := Outcomes(cacheDir, true, files, rows, n).0;
      assert outs[..n - 1] == Outcomes(cacheDir, true, files, rows, n - 1).0;
    }
  }

  /** A nickname that occurs twice is built at most once when not
      overwriting: once its card is built, the later row finds the file. */
  lemma DuplicateSkippedAfterBuild(cacheDir: string, files: set<string>,
                                   rows: seq<CardRow>, n: nat, i: nat, j: nat)
    requires i < j < n <= |rows|
    requires rows[i].nickname == rows[j].nickname
    requires Outcomes(cacheDir, false, files, rows, n).0[i] == Built
    ensures Outcomes(cacheDir, false, files, rows, n).0[j] == Skipped
  {
    OutcomesPrefix(cacheDir, false, files, rows, i + 1, n);
    assert Outcomes(cacheDir, false, files, rows, n).0[i] == Outcomes(cacheDir, false, files, rows, n).0[..i + 1][i];
    FilesGrow(cacheDir, false, files, rows, i + 1, j);
    SkippedIffPresent(cacheDir, files, rows, n, j);
  }
}

=== FILE: wrappers.dfy ===
/** The optional-value datatype shared by every module of the model. */
module Wrappers {

  /** `None` stands for Python's `None`, a failed lookup or a dropped event. */
  datatype Option<+T> = None | Some(value: T) {

    /** The wrapped value, or `default` when there is none. */
    function GetOr(default: T): T {
      match this
      case Some(v) => v
      case None => default
    }
  }
}
